=== FILE: README.md ===
# Vertical: authorization, audit and phone-reliability core in Dafny

This project models the request pipeline of the Vertical service. Vertical is a
Starlette application that answers one question for authorised clients: is a
phone number "reliable"? A number is unreliable when the same person submitted
it on dates more than `delta` days apart.

The model covers:

- **Request gates** (`Middlewares`): every request passes through a stack of
  middlewares, outermost first:
  - an `X-Request-Id` check (a canonical UUIDv4, echoed on the response);
  - a catch-all that turns escaped exceptions into 500;
  - a `Content-Type` check;
  - JSON body parsing;
  - the access log, which writes the request row before the route runs and the
    response row after it.
- **Authorization** (`Auth`): protected routes call `authorize`. It parses the
  `Authorization: Bearer <token>` header, finds the contract by token, and
  refuses expired or revoked contracts. On success it writes one
  identification row that ties the request to the contract.
- **Store** (`Store`): the database is a value with five tables:
  - `clients`
  - `contracts`
  - `requests`
  - `responses`
  - `identifications`

  Every statement returns its result together with the database it leaves.
  The constraints the migrations declare are the invariant `Store.Valid`:
  primary keys, foreign keys, the (request, contract) uniqueness, column
  widths and the `SMALLINT` range. Writing text to a `VARCHAR(n)` column
  follows SQL assignment: characters past `n` are cut off when they are all
  spaces, and are an error otherwise. Text holding U+0000 is an error.
- **Projections, handlers and envelopes**:
  - `Adapters`: the request and response records the audit log stores;
  - `ExceptionHandlers`: the three exception handlers;
  - `Responses`: the JSON envelopes.
- **Validators and the business rule**:
  - `Uuid`: `is_valid_uuid`;
  - `Phones`: the `7\d{10}` phone validator and the `Phone` schema round trip;
  - `Hunter`: the reliability rule, which groups the matching submissions by
    person and reports a hit when one person's span exceeds `delta`.

Supporting modules:

- `Common`: `Option`, `Result`, bytes, and a few sequence identities.
- `Text`: Python's `str.split()`, `startswith`, slicing and decimal rendering.
- `Json`: JSON values with Python truthiness.

Foreign functions are parameters:

- the JSON parser, UTF-8 decoding and `strftime` (a field of
  `Middlewares.Env`, or a function argument);
- `make_hash`;
- the clock, as an integer instant;
- the key the database generates for a new identification.

## Model

| member | source | states |
|---|---|---|
| Store.LifecycleBoundaries | vertical/app/auth.py:44-52 | the instant of expiry/revocation itself counts as expired/revoked, the instant before does not, and an absent timestamp never does |
| Store.LifecycleMonotone | vertical/app/auth.py:44-52 | once expired (revoked), a contract stays expired (revoked) at every later instant |
| Auth.Render | vertical/app/auth.py:88-141 | each of the four argument-free failures has its own fixed message; a message starts with the expiry prefix iff the failure is `ContractExpired`, the same for revocation, and the rest of the message is the formatted timestamp |
| Auth.RenderIdentifies | vertical/app/auth.py:95-141 | two failures with the same message are the same failure (the timestamped ones up to the formatted instant) |
| Auth.ParseAuthorization | vertical/app/auth.py:282-294 | absent or empty header iff `AuthHeaderNotRecognized`; non-empty and not exactly two words iff `InvalidAuthScheme`; two words with first word not `Bearer` iff `BearerExpected`; success iff the split is `[Bearer, token]` and then the token is the second word |
| Auth.TokenHeader | vertical/app/auth.py:286-294 | `"Bearer " + token` splits back into exactly `Bearer` and the token |
| Auth.Authorize | vertical/app/auth.py:281-317 | header failures are reported unchanged with the store untouched; `InvalidAccessToken` iff no contract has the token; every failure leaves the store unchanged; success appends exactly one identification naming the request id, with the fresh key |
| Auth.Admit | vertical/app/auth.py:304-317 | after the lookup, the checks in order: a missing client gives `ClientMissing`; else an expired contract gives `ContractExpired` with its instant; else a revoked one gives `ContractRevoked` with its instant; else an absent or unparseable request id gives `BadRequestId`; failures leave the store unchanged; success appends exactly the identification of (request, contract); this step never reports `InvalidAccessToken` |
| Auth.AdmitRefusal | vertical/app/auth.py:304-317 | for a contract with its client: expired means `ContractExpired` with its instant, whether or not revoked; revoked but not expired means `ContractRevoked`; a current contract is never refused for itself, only for a bad request id or a rejected insert |
| Auth.AuthorizeRefusal | vertical/app/auth.py:296-312 | in a consistent store, a parsed token that finds no contract, an expired one or a revoked one is refused with exactly that failure, checked in that order, on the unchanged store; a token that finds a current contract is never refused for the token's sake |
| Auth.AdmitSucceedsIff | vertical/app/auth.py:304-317 | for a stored contract: success iff not expired, not revoked, the request id is a parseable UUID whose row exists, and the (request, contract) pair and the fresh key are both new |
| Auth.AuthorizeSucceedsIff | vertical/app/auth.py:296-317 | for a header that parses and a token that finds contract `c`: success iff `c` is current and the identification insert is admissible; the identification names `c` |
| Auth.ExpiredBeforeRevoked | vertical/app/auth.py:306-312 | the header `Bearer <token>` for an expired contract is refused with `ContractExpired` and its expiry instant, whether or not the contract is also revoked |
| Auth.AuthorizeValid | vertical/app/auth.py:281-317 | `authorize` preserves every constraint of the store |
| Store.StoreVarchar | migrations/versions/20200319162321_create_requests_table.py:25-27 | a `VARCHAR(n)` column keeps a prefix of at most `n` characters, and the whole value exactly when it is no longer than `n` |
| Store.StoreVarcharPads | migrations/versions/20200319162321_create_requests_table.py:25-27 | for a value the column accepts, the kept prefix padded with spaces gives back the value: only trailing spaces are lost |
| Store.VarcharError | migrations/versions/20200319162321_create_requests_table.py:25-27 | a `VARCHAR(n)` assignment raises no error exactly when the value holds no U+0000 and has only spaces past `n` |
| Store.SaveRequest | vertical/app/auth.py:183-207 | the insert succeeds iff the id is present and new and remote, method and path can be assigned to their `VARCHAR` columns; success adds exactly that row, with each text cut to its column width; failure changes nothing |
| Store.SaveRequestPathEdges | migrations/versions/20200319162321_create_requests_table.py:27 | a 50-character path followed by two spaces is saved as the 50 characters; a path holding U+0000 is refused |
| Store.SaveResponse | vertical/app/auth.py:209-229 | succeeds iff the code fits `SMALLINT`, the request row exists and has no response yet; success adds exactly that row; failure changes nothing |
| Store.GetContractByToken | vertical/app/auth.py:231-246 | `None` iff no contract carries the token; otherwise the first contract in storage order that does |
| Store.GetClient | vertical/app/auth.py:248-263 | the client found is the one the contract references, and in a valid store every stored contract has one |
| Store.Identify | vertical/app/auth.py:265-279 | succeeds iff the key and the (request, contract) pair are new and both referenced rows exist; success appends exactly that row; failure changes nothing |
| Store.SaveRequestValid | migrations/versions/20200319162321_create_requests_table.py:24-30 | a request insert preserves every constraint of the store |
| Store.SaveResponseValid | migrations/versions/20200319162632_create_responses_table.py:24-31 | a response insert preserves every constraint of the store |
| Store.IdentifyValid | migrations/versions/20200319162832_create_identifications_table.py:30-41 | an identification insert preserves every constraint of the store |
| Store.ContractHasClient | migrations/versions/20200319162226_create_contracts_table.py:34-37 | the contract a token finds always has its client, so the client lookup in `authorize` cannot come back empty |
| Store.SecondResponseRejected | migrations/versions/20200319162632_create_responses_table.py:24 | a second response for the same request is rejected |
| Store.SecondIdentificationRejected | migrations/versions/20200319162832_create_identifications_table.py:30-33 | a second identification of the same request under the same contract is rejected |
| Hunter.PersonKeyInjective | vertical/app/hunter.py:61-62 | with equal-width name hashes, two submissions have the same person key iff they have the same name hash and the same birthday hash |
| Hunter.Matching | vertical/app/hunter.py:100-101 | exactly the submissions whose phone hash equals the number's hash are kept |
| Hunter.SortByDate | vertical/app/hunter.py:102 | the result is date-ordered and a permutation of the input |
| Hunter.GroupByPersonGroups | vertical/app/hunter.py:112-116 | the grouping loop builds one group per person key, holding exactly that person's submissions in input order |
| Hunter.GroupingPartitions | vertical/app/hunter.py:112-116 | for date-ordered input, every submission lies in a group of its own person, groups have distinct keys, and each group is date-ordered |
| Hunter.AnyHitMeaning | vertical/app/hunter.py:112-126 | the group scan finds a hit iff two submissions of one person are more than `delta` days apart |
| Hunter.Verify | vertical/app/hunter.py:96-126 | a true status implies a period; the period is absent iff no submission has the number's hash |
| Hunter.VerifyMeaning | vertical/app/hunter.py:96-126 | the verdict is described without order or grouping: no period iff no match; otherwise the period is (earliest matched date, latest matched date); the status is true iff one person's matches span more than `delta` days |
| Hunter.DescribesUniquely | vertical/app/hunter.py:96-126 | that description determines the verdict: two verdicts describing the same matches are equal |
| Hunter.VerifyDependsOnlyOnMatches | vertical/app/hunter.py:100-103 | tables with the same matching submissions get the same verdict |
| Hunter.TwoSubmissions | vertical/app/hunter.py:110-123 | with two matches of one person, the period is their two dates and the status is true iff the earlier date plus `delta` is strictly before the later one |
| Hunter.RuleExamples | tests/app/test_endpoints.py:467-599 | with `delta` 180, a January-to-May 2020 pair is not a hit and a 2000-to-2020 pair is, both with their period |
| Phones.ValidatePhoneNumber | vertical/app/models.py:15-19 | a number passes iff it is `7` followed by exactly ten ASCII digits; a rejected number gets exactly the message `Phone number does't match expected pattern: 7\d{10}.` |
| Phones.NumberErrors | vertical/app/models.py:34 | the `number` field has no error iff it is present, a string and a valid number |
| Phones.LoadErrors | vertical/app/models.py:34-39 | a non-object is one schema error; every unknown key is reported; no error iff the keys are only `number` and it is valid |
| Phones.FromDict | vertical/app/models.py:29-31 | loading succeeds iff the document is exactly `{"number": <valid string>}`, and then holds that number; failures carry a non-empty error object |
| Phones.LoadThenDump | vertical/app/models.py:26-31 | dumping a loaded phone gives back the input document |
| Phones.DumpThenLoad | vertical/app/models.py:26-31 | loading a dumped valid phone gives back the phone |
| Phones.MissingAndNullDiffer | tests/app/test_models.py:27-56 | a missing `number` and a null `number` give different error messages |
| Phones.AcceptedNumbers | tests/app/test_models.py:11-25 | the four sample numbers are accepted |
| Phones.RejectedNumbers | tests/app/test_models.py:58-81 | a leading 8, lengths 15, 9, 10 and 12, letters and the empty string are rejected |
| Uuid.IsValidUuid | vertical/app/utils.py:20-25 | an accepted string has length 36, hyphens at 8, 13, 18 and 23, lowercase hex elsewhere, `4` at index 14 and one of `89ab` at index 19; unparseable input gives false |
| Uuid.ValidIffCanonical | vertical/app/utils.py:20-25 | a string is accepted iff it is the canonical lowercase version-4 spelling |
| Uuid.CanonicalIsValid | vertical/app/utils.py:20-25 | every canonical lowercase version-4 string is accepted |
| Uuid.BracedParses | vertical/app/utils.py:22 | `uuid.UUID` strips braces around an id before reading its digits |
| Uuid.UrnParses | vertical/app/utils.py:22 | `uuid.UUID` drops a `urn:uuid:` prefix before reading the digits |
| Uuid.HyphenFreeParses | vertical/app/utils.py:22 | the 32 bare digits of an id read as the same digits as the hyphenated id |
| Uuid.UppercaseParses | vertical/app/utils.py:22 | an id with an uppercase hex digit still parses |
| Uuid.NonCanonicalSpellingsRejected | vertical/app/utils.py:22-25 | braces, a `urn:uuid:` prefix, a hyphen-free spelling and an uppercase digit all parse, and all are rejected |
| Uuid.MakeUuid | vertical/app/utils.py:35-36 | `str(uuid4())` always passes the check |
| Uuid.SetVersion4 | vertical/app/utils.py:22 | forcing version 4 sets nibble 12 to 4 and the variant bits of nibble 16 to `10`, and changes no other nibble |
| Responses.Ok | vertical/app/responses.py:39-44 | status 200, keys `data` and `message`; truthy data and non-empty message are kept, falsy ones fall back to `{}` and `OK` |
| Responses.BadRequest | vertical/app/responses.py:47-51 | status 400 with the one member `message` holding the given text |
| Responses.BadRequestInverse | vertical/app/responses.py:47-51 | every 400 response whose content is a lone string `message` is `bad_request` of that message |
| Responses.UnsupportedMediaType | vertical/app/responses.py:54-58 | status 415 with the one member `message` "Unsupported media type" |
| Responses.ValidationError | vertical/app/responses.py:61-66 | status 422 with `errors` as given and the fixed message |
| Responses.ServerError | vertical/app/responses.py:69-73 | status 500 with the one member `message` "Internal server error" |
| Responses.WithHeader | vertical/app/middlewares.py:38 | setting a header changes that header only; status, content and every other header are kept |
| Adapters.RemoteAddr | vertical/app/adapters.py:35-36 | the address is the host, a colon, then decimal digits |
| Adapters.RemoteAddrRoundTrip | vertical/app/adapters.py:35-36 | reading an address back at its last colon gives the host and port unchanged |
| Text.DecimalRoundTrip | vertical/app/adapters.py:36 | the decimal rendering of a port reads back as that port |
| Adapters.AdaptRequest | vertical/app/adapters.py:24-41 | no record iff the server reports no peer; identifier, authorization and referer are the raw headers; body absent iff the raw body is empty, else the decoded text; the address determines the peer; the user agent has the 64-character prefix shape |
| Text.Truncate | vertical/app/adapters.py:38-39 | the slice `[:n]`: a prefix of length at most `n`, the whole string when short enough |
| Adapters.AdaptResponse | vertical/app/adapters.py:52-56 | the record keeps the originating request and copies status and content |
| ExceptionHandlers.Handle | vertical/app/exception_handlers.py:14-40 | no handler iff the exception is unmapped; HTTP exceptions keep their status and detail, auth failures give 401 and their rendered message, validation errors give 422 with the messages; all with the fixed headers |
| ExceptionHandlers.HttpBadRequestIsBadRequest | vertical/app/exception_handlers.py:14-19 | an HTTP 400 exception produces exactly `bad_request(detail)` |
| ExceptionHandlers.AuthResponsesIdentify | vertical/app/exception_handlers.py:22-28 | two auth failures with the same response are the same failure (up to the formatted instant) |
| Text.LayoutOfWords | vertical/app/auth.py:287 | every string is its `split()` words separated by whitespace gaps, inner gaps non-empty |
| Text.WordsOfLayout | vertical/app/auth.py:287 | splitting words laid out with whitespace gives back exactly those words |
| Middlewares.Serve | vertical/app/middlewares.py:22-40 | it always answers; a missing or empty id gives the 400 "not recognized" and a non-canonical one the 400 "UUID format", both on the unchanged store; the response carries `x-request-id` iff the id was accepted, and then it is the inner response with that header |
| Middlewares.CatchAll | vertical/app/middlewares.py:43-54 | it always answers: inner responses pass unchanged and an escaped exception becomes the 500 envelope, on the store the inner layers left |
| Middlewares.CheckContentType | vertical/app/middlewares.py:57-72 | a missing or empty type gives 400, a type not starting with `application/json` gives 415, both on the unchanged store; otherwise the request passes on |
| Middlewares.ParseBody | vertical/app/middlewares.py:75-94 | a parsed body goes on as JSON; an unparseable non-empty body gives 400 "Could not parse request body"; an empty body always goes on as `{}`, because the parser, like `orjson.loads`, rejects the empty document |
| Middlewares.Access | vertical/app/middlewares.py:97-135 | ignored paths go straight through; elsewhere an exception from below leaves the response table unchanged, and an answer implies the request row exists and the response row holds exactly that answer |
| Middlewares.LogResponse | vertical/app/middlewares.py:126-130 | an exception passes through; an answer is saved under the request id and returned unchanged; saving succeeds whenever the request row exists, has no response yet, and the status fits `SMALLINT` |
| Middlewares.Dispatch | vertical/app/endpoints.py:26-31 | the layers below the middleware change the store by at most one added identification; an open route's outcome is settled by the exception handlers |
| Middlewares.GatesRefuseInOrder | vertical/app/middlewares.py:169-175 | a request refused by a gate leaves the store unchanged, and is refused by the outermost failing gate: request id first, then content type, then body |
| Middlewares.ServeThroughAccess | vertical/app/middlewares.py:169-175 | once the gates pass, the client gets the access layer's answer with `x-request-id` set, or the 500 envelope with it set when an exception escaped |
| Middlewares.IgnoredPathNotRecorded | vertical/app/middlewares.py:118-119 | a request to `/ping` adds no request row and no response row |
| Middlewares.EveryAnswerLogged | vertical/app/middlewares.py:123-130 | past the gates, either the request row exists and the response row holds what the client got, or the client got 500 and no response row was written |
| Middlewares.UnmappedExceptionAnswered500 | vertical/app/middlewares.py:50-54 | a route raising an unmapped exception: the request row is recorded, no response row, and the client gets the 500 envelope with its `x-request-id` |
| Middlewares.UnsavableRequestAnswered500 | vertical/app/middlewares.py:123-124 | a request whose row cannot be written gets the 500 envelope and changes nothing: a duplicate id, or a method or path holding U+0000 or a non-space character past its column width |
| Middlewares.ProtectedRouteIdentifies | vertical/app/middlewares.py:123-130 | on a protected route with a current contract, the request row is written before `authorize`, which appends exactly one identification; the route's response reaches the client and is logged |
| Middlewares.RefusedHeaderLogged | vertical/app/middlewares.py:123-130 | on a protected route with a refused `Authorization` header, the client gets 401 with the failure's message, the exchange is logged, and no identification is written |
| Middlewares.RefusedTokenLogged | vertical/app/auth.py:296-312 | on a protected route, a token that finds no contract, an expired one or a revoked one gets 401 with that failure's rendered message; the exchange is logged and no identification is written |
| Middlewares.ServeValid | vertical/app/middlewares.py:169-175 | serving any request preserves every constraint of the store |

## Left out

- Logging, timing (`perf_counter`), async scheduling and the connection pool are not modelled. The service is sequential here: one request at a time against one store value.
- Service set-up, `ping`, configuration schemas and `main.py` are left out. They are I/O and configuration.
- `HunterDatabaseMiddleware` is left out. It only releases the hunter session in a `finally`, and its result is the inner result, so it is the identity in this model.
- `resolve_response` in the access log is taken as the identity on the response. It re-reads the streamed body and re-packs it with the same status and headers.
- The JSON parser (orjson), UTF-8 decoding, `strftime` and `make_hash` (GOST R 34.11-94) are uninterpreted function parameters.
- The response body saved to the `JSONB` column is taken to be the response's JSON content. This assumes serialising and re-parsing is the identity.
- Middlewares.SaveIncoming stores a non-empty request body as the JSON the body parser produced, and `NULL` for an empty one, as the code does. The code stores the decoded text (vertical/app/adapters.py:30-31) and lets Postgres parse it with `$5::JSONB` (vertical/app/auth.py:186-204). The model takes Postgres's parse of the decoded text to equal the parser's result.
- Postgres normalises UUID text, for example it lower-cases it. The store keys rows by the id string as received. The request-id gate admits only canonical lowercase ids, so the two agree on every request that reaches the store.
- `get_contract_by_token` uses `LIMIT 1` without `ORDER BY`, so Postgres returns an unspecified match. The model returns the first match in storage order.
- The header-name constants live in vertical/hdrs.py, which is not part of this model. The names are the lower-case spellings an ASGI server delivers (`x-request-id`, `content-type`, `authorization`, `user-agent`, `referer`), and the scheme constant is `Bearer`.
- A request that repeats a header is modelled with one value per header name.
- The Python `int(..., 16)` call is lenient in ways `Uuid.Parse` does not model. It accepts underscores between digits, surrounding whitespace, a leading `+`, a `0x` prefix and non-ASCII decimal digits. Each of these puts a character outside `0-9`, `a-f` and `-` into the input. So such an input never equals its canonical formatting, and `Uuid.IsValidUuid` gives the same answer either way.
- Dates beyond year 9999 (Python's `OverflowError` in `date + delta`) are not modelled. Days are unbounded integers.
- `Phones.IsUnicodeDecimal` lists the 64 decimal-digit (Nd) blocks of Unicode 15.0, in every plane. A Python whose Unicode database is newer knows a few more blocks, and `Phones.MatchesAsWritten` does not include them.
- Phones.NumberErrors, Phones.LoadErrors and Phones.FromDict validate with the corrected ASCII pattern (`Phones.Matches`), not the pattern as written. So `Phone.from_dict` of a number written in, say, Arabic-Indic digits succeeds in the code and fails in the model. The finding below records the difference.
- Auth.Admit reads the clock once: one `now` serves both the expiry and the revocation check. `is_expired` and `is_revoked` each call `now()` (vertical/app/auth.py:44-52), so in the code an instant can pass between the two reads. Only a contract whose revocation instant falls between the two reads is affected.
- Auth.Admit checks `UUID(request.identifier)` with `Uuid.Parse`, which leaves out the leniency of `int(..., 16)` described above. No request reaches `authorize` with such an identifier: the request-id gate admits only the canonical spelling, and `Uuid.Parse` accepts that spelling.
- The route handler is abstract: it returns a response or raises one of four exception kinds. Starlette's routing (404/405) is covered by the `HttpException` kind.
- The test suite's middleware test that expects a request without `X-Request-Id` to pass contradicts vertical/app/middlewares.py:31-32. The model follows the code and rejects it with 400.
- vertical/app/endpoints.py:49 passes `verify` its arguments in the order (session, phone), against the signature at vertical/app/hunter.py:96. `Hunter.Verify` follows its own signature.
- Responses.Ok, Responses.BadRequest, Responses.UnsupportedMediaType, Responses.ValidationError, Responses.ServerError and ExceptionHandlers.Handle: `headers` holds only the headers the code sets. Starlette also adds `content-length`, computed from the rendered body, when it builds the response. That header is not modelled because the byte rendering of the JSON is not modelled.
- Postgres rejects a `JSONB` value holding the escape `\u0000`. `Json` does not model string escapes, so Store.SaveRequest and Store.SaveResponse accept a body with U+0000 in a string that Postgres would refuse.
- Responses.WithHeader: each response gets a fresh copy of the default headers. In a value model a response can never alias the template, so there is nothing left to state beyond "only that header changes".

## Findings

| source | as written | input that shows it | evidently intended | confidence | as-written member | corrected member |
|---|---|---|---|---|---|---|
| vertical/app/models.py:12 | `7\d{10}` on a `str` pattern: Python's `\d` matches every Unicode decimal digit, so numbers in other scripts pass validation | `"7"` followed by ten ARABIC-INDIC DIGIT ZERO characters (U+0660), or by ten MATHEMATICAL BOLD DIGIT ZERO characters (U+1D7CE) | `7` followed by ten ASCII digits `0`-`9` | not executed; medium (depends on the interpreter's `re` Unicode default for `str` patterns) | Phones.UnicodeDigitsSlipThrough | Phones.ValidatePhoneNumber |

=== FILE: adapters.dfy ===
/**
 * The projections of vertical/app/adapters.py: what the audit log and the
 * authorization check read from an incoming request, and what is kept of an
 * outgoing response. Header names are the lower-case spellings the ASGI server
 * delivers; a header absent from the map is absent from the request.
 */
module Adapters {
  import opened Common
  import opened Json
  import Text
  import opened Responses

  const XRequestIdHeader: string := "x-request-id"
  const AuthorizationHeader: string := "authorization"
  const UserAgentHeader: string := "user-agent"
  const RefererHeader: string := "referer"

  /** `user_agent` keeps at most this many characters. */
  const UserAgentWidth: nat := 64

  /** The peer address the server reports for the connection. */
  datatype Peer = Peer(host: string, port: nat)

  /** An incoming request as the middleware sees it; `client` is `None` when the server reports no peer. */
  datatype HttpRequest = HttpRequest(
    httpMethod: string,
    path: string,
    headers: map<string, string>,
    body: seq<byte>,
    client: Option<Peer>)

  /** `request.headers.get(name)`. */
  function Header(req: HttpRequest, name: string): Option<string> {
    if name in req.headers then Some(req.headers[name]) else None
  }

  /** The fields of `RequestAdapter` (the `RequestProtocol` record). */
  datatype RequestRecord = RequestRecord(
    identifier: Option<string>,
    httpMethod: string,
    path: string,
    body: Option<string>,
    remoteAddr: string,
    referer: Option<string>,
    userAgent: string,
    authorization: Option<string>)

  /** `f"{host}:{port}"`. */
  function RemoteAddr(p: Peer): (r: string)
    ensures |r| > |p.host| + 1
    ensures r[..|p.host|] == p.host && r[|p.host|] == ':'
    ensures forall i :: |p.host| < i < |r| ==> Text.IsAsciiDigit(r[i])
  {
    var d := Text.Decimal(p.port);
    var r := p.host + ":" + d;
    assert forall i :: |p.host| < i < |r| ==> r[i] == d[i - |p.host| - 1];
    r
  }

  /** Position of the last `:` in `s`, if any. */
  function LastColon(s: string): (r: Option<nat>)
    ensures r.Some? ==> r.value < |s| && s[r.value] == ':'
    ensures r.Some? ==> forall i :: r.value < i < |s| ==> s[i] != ':'
    ensures r.None? ==> forall i :: 0 <= i < |s| ==> s[i] != ':'
  {
    if s == [] then None
    else if s[|s| - 1] == ':' then Some(|s| - 1)
    else LastColon(s[..|s| - 1])
  }

  /** Reads an address back: the host up to the last `:`, the port as the decimal after it. */
  function SplitRemoteAddr(s: string): Option<Peer> {
    match LastColon(s)
    case None => None
    case Some(i) =>
      var digits := s[i + 1..];
      if digits != [] && forall k :: 0 <= k < |digits| ==> Text.IsAsciiDigit(digits[k]) then
        Some(Peer(s[..i], Text.ParseDecimal(digits)))
      else None
  }

  /** The last colon of an address is the one after the host, whatever the host contains. */
  lemma LastColonOfRemoteAddr(p: Peer)
    ensures LastColon(RemoteAddr(p)) == Some(|p.host|)
  {
  }

  /** The address string determines the peer: host and port come back unchanged. */
  lemma RemoteAddrRoundTrip(p: Peer)
    ensures SplitRemoteAddr(RemoteAddr(p)) == Some(p)
  {
    var r := RemoteAddr(p);
    LastColonOfRemoteAddr(p);
    var d := Text.Decimal(p.port);
    assert r == p.host + ":" + d;
    assert r[|p.host| + 1..] == d;
    Text.DecimalRoundTrip(p.port);
  }

  /**
   * `RequestAdapter(request)`. Unpacking `request.client` raises when the server
   * reports no peer, so there is no record then; `decode` is the UTF-8 decoding
   * of the body bytes.
   */
  function AdaptRequest(req: HttpRequest, decode: seq<byte> -> string): (r: Option<RequestRecord>)
    ensures r.None? <==> req.client.None?
    ensures r.Some? ==> r.value.identifier == Header(req, XRequestIdHeader)
    ensures r.Some? ==> r.value.authorization == Header(req, AuthorizationHeader)
    ensures r.Some? ==> r.value.referer == Header(req, RefererHeader)
    ensures r.Some? ==> r.value.httpMethod == req.httpMethod && r.value.path == req.path
    ensures r.Some? ==> (r.value.body.None? <==> req.body == [])
    ensures r.Some? && r.value.body.Some? ==> r.value.body.value == decode(req.body)
    ensures r.Some? ==> SplitRemoteAddr(r.value.remoteAddr) == req.client
    ensures r.Some? ==> UserAgentShape(req, r.value.userAgent)
  {
    match req.client
    case None => None
    case Some(peer) =>
      RemoteAddrRoundTrip(peer);
      var ua := Header(req, UserAgentHeader).GetOr("");
      Some(RequestRecord(
        Header(req, XRequestIdHeader),
        req.httpMethod,
        req.path,
        if req.body == [] then None else Some(decode(req.body)),
        RemoteAddr(peer),
        Header(req, RefererHeader),
        Text.Truncate(ua, UserAgentWidth),
        Header(req, AuthorizationHeader)))
  }

  /**
   * `user_agent` is a prefix of the header of at most 64 characters, the whole
   * header when it is short enough, and empty when the header is absent.
   */
  predicate UserAgentShape(req: HttpRequest, ua: string) {
    && |ua| <= UserAgentWidth
    && (UserAgentHeader !in req.headers ==> ua == [])
    && (UserAgentHeader in req.headers ==>
          && Text.StartsWith(req.headers[UserAgentHeader], ua)
          && (|req.headers[UserAgentHeader]| <= UserAgentWidth ==> ua == req.headers[UserAgentHeader])
          && (|req.headers[UserAgentHeader]| >= UserAgentWidth ==> |ua| == UserAgentWidth))
  }

  /** The fields of `ResponseAdapter` (the `ResponseProtocol` record). */
  datatype ResponseRecord = ResponseRecord(request: RequestRecord, body: Json, code: int)

  /**
   * `ResponseAdapter(request, response)`: the originating request, the status
   * code, and the body, which is the response content serialised and decoded.
   */
  function AdaptResponse(request: RequestRecord, response: Response): (r: ResponseRecord)
    ensures r.request == request
    ensures r.code == response.status && r.body == response.content
  {
    ResponseRecord(request, response.content, response.status)
  }
}

=== FILE: auth.dfy ===
/**
 * The authorization decision of vertical/app/auth.py: the `AuthException`
 * family with its fixed messages, and `AuthService.authorize`, a short chain of
 * checks that stops at the first failure (header present, two words, the
 * `Bearer` scheme, a contract for the token, its client, not expired, not
 * revoked) and on success records which contract the request was made under.
 * The scheme comparison is exact, so `bearer` is refused, unlike the
 * case-insensitive scheme names of section 2.1 of RFC 7235.
 */
module Auth {
  import opened Common
  import Text
  import Uuid
  import opened Store

  /** The scheme word the header must start with. */
  const Bearer: string := "Bearer"

  /** `AuthException.http_status`, shared by every subclass. */
  const HttpStatus: int := 401

  /** The concrete `AuthException` subclasses; the contract failures keep the instant they report. */
  datatype AuthError =
    | AuthHeaderNotRecognized
    | InvalidAuthScheme
    | BearerExpected
    | InvalidAccessToken
    | ContractExpired(expiredAt: int)
    | ContractRevoked(revokedAt: int)

  const HeaderMessage: string := "Authorization header not recognized"
  const SchemeMessage: string := "Invalid authorization scheme"
  const BearerMessage: string := "Expected Bearer token type"
  const TokenMessage: string := "Invalid access token"
  const ExpiredPrefix: string := "Your contract was expired on "
  const RevokedPrefix: string := "Your contract was revoked on "

  /**
   * `render`. The timestamp formatting (`strftime("%Y.%m.%d %H:%M:%S")`) is the
   * parameter `format`.
   */
  function Render(e: AuthError, format: int -> string): (m: string)
    ensures Text.StartsWith(m, ExpiredPrefix) <==> e.ContractExpired?
    ensures Text.StartsWith(m, RevokedPrefix) <==> e.ContractRevoked?
    ensures e.ContractExpired? ==> m[|ExpiredPrefix|..] == format(e.expiredAt)
    ensures e.ContractRevoked? ==> m[|RevokedPrefix|..] == format(e.revokedAt)
    ensures e == AuthHeaderNotRecognized ==> m == HeaderMessage
    ensures e == InvalidAuthScheme ==> m == SchemeMessage
    ensures e == BearerExpected ==> m == BearerMessage
    ensures e == InvalidAccessToken ==> m == TokenMessage
  {
    match e
    case ContractExpired(at) =>
      var m := ExpiredPrefix + format(at);
      assert m[..|ExpiredPrefix|] == ExpiredPrefix;
      Text.NotStartsWith(m, RevokedPrefix, 18);
      m
    case ContractRevoked(at) =>
      var m := RevokedPrefix + format(at);
      assert m[..|RevokedPrefix|] == RevokedPrefix;
      Text.NotStartsWith(m, ExpiredPrefix, 18);
      m
    case _ =>
      var m := FixedMessage(e);
      Text.NotStartsWith(m, ExpiredPrefix, 0);
      Text.NotStartsWith(m, RevokedPrefix, 0);
      m
  }

  /** The messages that take no argument. */
  function FixedMessage(e: AuthError): (m: string)
    requires !e.ContractExpired? && !e.ContractRevoked?
    ensures m != [] && m[0] != 'Y'
  {
    match e
    case AuthHeaderNotRecognized => HeaderMessage
    case InvalidAuthScheme => SchemeMessage
    case BearerExpected => BearerMessage
    case InvalidAccessToken => TokenMessage
  }

  /** The message identifies the failure: equal messages mean the same failure, up to the formatted instant. */
  lemma RenderIdentifies(e1: AuthError, e2: AuthError, format: int -> string)
    requires Render(e1, format) == Render(e2, format)
    ensures e1.ContractExpired? ==> e2.ContractExpired? && format(e1.expiredAt) == format(e2.expiredAt)
    ensures e1.ContractRevoked? ==> e2.ContractRevoked? && format(e1.revokedAt) == format(e2.revokedAt)
    ensures !e1.ContractExpired? && !e1.ContractRevoked? ==> e1 == e2
  {
  }

  /** Why `authorize` did not return an identification. */
  datatype Failure =
    | Denied(error: AuthError)
    /** `get_client` found no row and building a `Client` from `None` raised. */
    | ClientMissing
    /** `UUID(request.identifier)` raised: the identifier is absent or does not parse. */
    | BadRequestId
    /** The identification insert was rejected by the database. */
    | Rejected(cause: DbError)

  /** The result of `authorize` and the database after it. */
  datatype Outcome = Outcome(result: Result<Identification, Failure>, db: Db)

  /**
   * The header checks of `authorize`: the header must be present and non-empty,
   * split into exactly two words, and start with `Bearer`; the second word is
   * the token.
   */
  function ParseAuthorization(authorization: Option<string>): (r: Result<string, AuthError>)
    ensures r == Err(AuthHeaderNotRecognized) <==> authorization.None? || authorization.value == []
    ensures r == Err(InvalidAuthScheme) <==>
      authorization.Some? && authorization.value != [] && |Text.Words(authorization.value)| != 2
    ensures r == Err(BearerExpected) <==>
      authorization.Some? && |Text.Words(authorization.value)| == 2 && Text.Words(authorization.value)[0] != Bearer
    ensures r.Ok? <==> authorization.Some? && |Text.Words(authorization.value)| == 2
                       && Text.Words(authorization.value)[0] == Bearer
    ensures r.Ok? ==> Text.Words(authorization.value) == [Bearer, r.value]
  {
    if authorization.None? || authorization.value == [] then
      assert authorization.Some? ==> Text.Words(authorization.value) == [];
      Err(AuthHeaderNotRecognized)
    else
      var words := Text.Words(authorization.value);
      if |words| != 2 then Err(InvalidAuthScheme)
      else if words[0] != Bearer then Err(BearerExpected)
      else Ok(words[1])
  }

  /**
   * `AuthService.authorize` for a request with the given `Authorization` and
   * `X-Request-Id` header values, at instant `now`; `freshId` is the key the
   * server generates for a new identification row.
   */
  function Authorize(db: Db, authorization: Option<string>, identifier: Option<string>, now: int,
                     freshId: string): (r: Outcome)
    ensures ParseAuthorization(authorization).Err? ==>
      r == Outcome(Err(Denied(ParseAuthorization(authorization).error)), db)
    ensures ParseAuthorization(authorization).Ok? ==>
      (r.result == Err(Denied(InvalidAccessToken)) <==>
         GetContractByToken(db, ParseAuthorization(authorization).value).None?)
    ensures r.result.Err? ==> r.db == db
    ensures r.result.Ok? ==>
      && identifier == Some(r.result.value.requestId)
      && r.result.value.id == freshId
      && r.db == db.(identifications := db.identifications + [r.result.value])
  {
    match ParseAuthorization(authorization)
    case Err(e) => Outcome(Err(Denied(e)), db)
    case Ok(token) =>
      match GetContractByToken(db, token)
      case None => Outcome(Err(Denied(InvalidAccessToken)), db)
      case Some(contract) => Admit(db, contract, identifier, now, freshId)
  }

  /**
   * The checks of `authorize` after the token has found `contract`: its client,
   * expiry, revocation, the request id, and finally the identification insert.
   */
  function Admit(db: Db, contract: Contract, identifier: Option<string>, now: int, freshId: string): (r: Outcome)
    ensures r.result.Err? ==> r.db == db
    ensures r.result.Ok? ==>
      && identifier == Some(r.result.value.requestId)
      && r.result.value.contractId == contract.id
      && r.result.value.id == freshId
      && r.db == db.(identifications := db.identifications + [r.result.value])
      && r.db == Identify(db, identifier.value, contract.id, freshId).db
    ensures r.result != Err(Denied(InvalidAccessToken))
    ensures GetClient(db, contract).None? ==> r.result == Err(ClientMissing)
    ensures GetClient(db, contract).Some? && IsExpired(contract, now) ==>
      r.result == Err(Denied(ContractExpired(contract.expiredAt.value)))
    ensures GetClient(db, contract).Some? && !IsExpired(contract, now) && IsRevoked(contract, now) ==>
      r.result == Err(Denied(ContractRevoked(contract.revokedAt.value)))
    ensures GetClient(db, contract).Some? && !IsExpired(contract, now) && !IsRevoked(contract, now)
            && (identifier.None? || Uuid.Parse(identifier.value).None?) ==>
      r.result == Err(BadRequestId)
  {
    if GetClient(db, contract).None? then Outcome(Err(ClientMissing), db)
    else if IsExpired(contract, now) then Outcome(Err(Denied(ContractExpired(contract.expiredAt.value))), db)
    else if IsRevoked(contract, now) then Outcome(Err(Denied(ContractRevoked(contract.revokedAt.value))), db)
    else if identifier.None? || Uuid.Parse(identifier.value).None? then Outcome(Err(BadRequestId), db)
    else
      var step := Identify(db, identifier.value, contract.id, freshId);
      match step.result
      case Ok(row) => Outcome(Ok(row), step.db)
      case Err(e) => Outcome(Err(Rejected(e)), db)
  }

  // ---------------------------------------------------------------------------
  // What a successful authorization means.
  // ---------------------------------------------------------------------------

  /**
   * The request may proceed under contract `c`: the header carries a bearer token,
   * `c` is the first contract holding it, `c` is current at `now`, and the request
   * has a parseable id.
   */
  predicate Grants(db: Db, authorization: Option<string>, identifier: Option<string>, now: int, c: Contract) {
    && ParseAuthorization(authorization).Ok?
    && GetContractByToken(db, ParseAuthorization(authorization).value) == Some(c)
    && !IsExpired(c, now) && !IsRevoked(c, now)
    && identifier.Some? && Uuid.Parse(identifier.value).Some?
  }

  /**
   * Once the token has found contract `c` of a consistent database, `authorize`
   * succeeds exactly when `c` is current, the request id parses, and the
   * identification row is new and refers to a saved request.
   */
  lemma AdmitSucceedsIff(db: Db, c: Contract, identifier: Option<string>, now: int, freshId: string)
    requires ContractsValid(db) && HasContract(db, c.id)
    ensures Admit(db, c, identifier, now, freshId).result.Ok? <==>
      && !IsExpired(c, now) && !IsRevoked(c, now)
      && identifier.Some? && Uuid.Parse(identifier.value).Some?
      && identifier.value in db.requests
      && !HasPair(db, identifier.value, c.id) && !HasIdentification(db, freshId)
  {
    assert GetClient(db, c).Some?;
  }

  /**
   * In a consistent database, once the header presents contract `c`,
   * `authorize` succeeds exactly when it grants `c` and the identification row
   * is new and refers to a saved request; the row then names `c`.
   */
  lemma AuthorizeSucceedsIff(db: Db, authorization: Option<string>, identifier: Option<string>, now: int,
                             freshId: string, c: Contract)
    requires ContractsValid(db)
    requires ParseAuthorization(authorization).Ok?
    requires GetContractByToken(db, ParseAuthorization(authorization).value) == Some(c)
    ensures Authorize(db, authorization, identifier, now, freshId).result.Ok? <==>
      && Grants(db, authorization, identifier, now, c)
      && identifier.value in db.requests
      && !HasPair(db, identifier.value, c.id) && !HasIdentification(db, freshId)
    ensures Authorize(db, authorization, identifier, now, freshId).result.Ok? ==>
      Authorize(db, authorization, identifier, now, freshId).result.value.contractId == c.id
  {
    assert HasContract(db, c.id);
    assert Authorize(db, authorization, identifier, now, freshId) == Admit(db, c, identifier, now, freshId);
    AdmitSucceedsIff(db, c, identifier, now, freshId);
  }

  /** `authorize` keeps every constraint of the database. */
  lemma AuthorizeValid(db: Db, authorization: Option<string>, identifier: Option<string>, now: int, freshId: string)
    requires Valid(db)
    ensures Valid(Authorize(db, authorization, identifier, now, freshId).db)
  {
    var r := Authorize(db, authorization, identifier, now, freshId);
    if ParseAuthorization(authorization).Ok? {
      var token := ParseAuthorization(authorization).value;
      if GetContractByToken(db, token).Some? {
        var c := GetContractByToken(db, token).value;
        assert r == Admit(db, c, identifier, now, freshId);
        if r.result.Ok? {
          IdentifyValid(db, identifier.value, c.id, freshId);
        }
      }
    }
  }

  // ---------------------------------------------------------------------------
  // The order of the checks.
  // ---------------------------------------------------------------------------

  /** An expired contract is reported as expired, whether or not it is also revoked. */
  lemma ExpiredBeforeRevoked(db: Db, token: string, identifier: Option<string>, now: int, freshId: string)
    requires Valid(db) && Text.IsWord(token)
    requires GetContractByToken(db, token).Some?
    requires IsExpired(GetContractByToken(db, token).value, now)
    ensures Authorize(db, Some(Bearer + " " + token), identifier, now, freshId).result
         == Err(Denied(ContractExpired(GetContractByToken(db, token).value.expiredAt.value)))
  {
    var c := GetContractByToken(db, token).value;
    ContractHasClient(db, token);
    TokenHeader(token);
    AuthorizeFinds(db, Some(Bearer + " " + token), token, identifier, now, freshId, c);
  }

  /**
   * The refusal a bearer token earns on its own, checked in the order of
   * `authorize`: no contract, then expiry, then revocation; `None` when the
   * token finds a current contract.
   */
  function Refusal(db: Db, token: string, now: int): Option<AuthError> {
    match GetContractByToken(db, token)
    case None => Some(InvalidAccessToken)
    case Some(c) =>
      if IsExpired(c, now) then Some(ContractExpired(c.expiredAt.value))
      else if IsRevoked(c, now) then Some(ContractRevoked(c.revokedAt.value))
      else None
  }

  /**
   * In a consistent database, a token with a refusal is refused with exactly
   * that failure and the store unchanged; a token without one is never refused
   * for the token's sake, and only a bad request id or the insert can still fail.
   */
  lemma AuthorizeRefusal(db: Db, authorization: Option<string>, identifier: Option<string>, now: int, freshId: string)
    requires ContractsValid(db) && ParseAuthorization(authorization).Ok?
    ensures var token := ParseAuthorization(authorization).value;
            Refusal(db, token, now).Some? ==>
              Authorize(db, authorization, identifier, now, freshId) == Outcome(Err(Denied(Refusal(db, token, now).value)), db)
    ensures var token := ParseAuthorization(authorization).value;
            var r := Authorize(db, authorization, identifier, now, freshId).result;
            Refusal(db, token, now).None? ==> r.Ok? || r == Err(BadRequestId) || r.error.Rejected?
  {
    var token := ParseAuthorization(authorization).value;
    if GetContractByToken(db, token).Some? {
      var c := GetContractByToken(db, token).value;
      ContractHasClient(db, token);
      AuthorizeFinds(db, authorization, token, identifier, now, freshId, c);
      AdmitRefusal(db, c, identifier, now, freshId);
    }
  }

  /** The refusal, and the consistency it relies on, read only the clients and contracts. */
  lemma RefusalOfContracts(db: Db, db': Db, token: string, now: int)
    requires db'.clients == db.clients && db'.contracts == db.contracts
    ensures Refusal(db', token, now) == Refusal(db, token, now)
    ensures ContractsValid(db) ==> ContractsValid(db')
  {
  }

  /** `Refusal` read on one contract: the failure the checks after the lookup report for it. */
  lemma AdmitRefusal(db: Db, c: Contract, identifier: Option<string>, now: int, freshId: string)
    requires GetClient(db, c).Some?
    ensures IsExpired(c, now) ==>
      Admit(db, c, identifier, now, freshId) == Outcome(Err(Denied(ContractExpired(c.expiredAt.value))), db)
    ensures !IsExpired(c, now) && IsRevoked(c, now) ==>
      Admit(db, c, identifier, now, freshId) == Outcome(Err(Denied(ContractRevoked(c.revokedAt.value))), db)
    ensures var r := Admit(db, c, identifier, now, freshId).result;
            !IsExpired(c, now) && !IsRevoked(c, now) ==> r.Ok? || r == Err(BadRequestId) || r.error.Rejected?
  {
  }

  /** Once the header yields `token` and the token finds `c`, `authorize` is the checks on `c`. */
  lemma AuthorizeFinds(db: Db, authorization: Option<string>, token: string, identifier: Option<string>, now: int,
                       freshId: string, c: Contract)
    requires ParseAuthorization(authorization) == Ok(token)
    requires GetContractByToken(db, token) == Some(c)
    ensures Authorize(db, authorization, identifier, now, freshId) == Admit(db, c, identifier, now, freshId)
  {
  }

  /** `Bearer <token>` splits into the scheme and the token when the token is a word. */
  lemma TokenHeader(token: string)
    requires Text.IsWord(token)
    ensures Text.Words(Bearer + " " + token) == [Bearer, token]
  {
    assert Text.IsWord(Bearer);
    Text.SpaceSeparated(Bearer, token);
  }
}

=== FILE: common.dfy ===
/** Failure-carrying wrappers and the byte type shared by every module of the model. */
module Common {

  /** A value that may be absent: Python's `Optional[T]`, where `None` is absence. */
  datatype Option<+T> = None | Some(value: T) {
    function GetOr(default: T): T {
      match this
      case Some(v) => v
      case None => default
    }
  }

  /** The outcome of an operation that either returns a value or raises an error. */
  datatype Result<+T, +E> = Ok(value: T) | Err(error: E)

  /** An octet of a raw HTTP body. */
  newtype byte = b: int | 0 <= b < 256

  // ---------------------------------------------------------------------------
  // Sequence identities, stated once so that proofs need not rediscover them
  // in a context full of other facts.
  // ---------------------------------------------------------------------------

  lemma SplitAt<T>(s: seq<T>, k: nat)
    requires k <= |s|
    ensures s == s[..k] + s[k..]
  {
  }

  lemma ConcatAssoc<T>(a: seq<T>, b: seq<T>, c: seq<T>)
    ensures a + (b + c) == a + b + c
  {
  }

  lemma HeadTail<T>(s: seq<T>)
    requires s != []
    ensures [s[0]] + s[1..] == s
  {
  }

  lemma InitLast<T>(s: seq<T>)
    requires s != []
    ensures s[..|s| - 1] + [s[|s| - 1]] == s
  {
  }

  lemma AppendEmpty<T>(s: seq<T>)
    ensures s + [] == s
  {
  }

  lemma Pair<T>(a: T, b: T)
    ensures [a] + [b] == [a, b]
  {
  }
}

=== FILE: handlers.dfy ===
/**
 * The exception handlers of vertical/app/exception_handlers.py, which turn the
 * three exception families the application registers into responses. Any
 * other exception is not handled here and travels on to the middleware.
 */
module ExceptionHandlers {
  import opened Common
  import opened Json
  import opened Responses
  import Auth

  /** The exceptions a route can raise, as far as their handling differs. */
  datatype Exception =
    /** Starlette's `HTTPException`, e.g. the router's 404 and 405. */
    | HttpException(status: int, detail: string)
    /** An `AuthException` subclass. */
    | AuthFailure(error: Auth.AuthError)
    /** marshmallow's `ValidationError` with its `messages`. */
    | ValidationFailure(messages: Json)
    /** Anything else: a database error, a `TypeError`, ... */
    | Unmapped

  /**
   * The handler registered for the exception's class, applied to it; `None`
   * when no handler is registered. `format` renders contract timestamps.
   */
  function Handle(e: Exception, format: int -> string): (r: Option<Response>)
    ensures r.None? <==> e.Unmapped?
    ensures r.Some? ==> r.value.headers == DefaultHeaders
    ensures e.HttpException? ==>
      r.value.status == e.status && Keys(r.value.content) == {MessageKey} && MessageOf(r.value) == Some(e.detail)
    ensures e.AuthFailure? ==>
      && r.value.status == Auth.HttpStatus && Keys(r.value.content) == {MessageKey}
      && MessageOf(r.value) == Some(Auth.Render(e.error, format))
    ensures e.ValidationFailure? ==>
      && r.value.status == UnprocessableEntityStatus
      && Member(r.value.content, ErrorsKey) == Some(e.messages)
      && MessageOf(r.value) == Some(ValidationMessage)
  {
    match e
    case HttpException(status, detail) =>
      Some(CreateResponse(JObject(map[MessageKey := JString(detail)]), status))
    case AuthFailure(error) =>
      Some(CreateResponse(JObject(map[MessageKey := JString(Auth.Render(error, format))]), Auth.HttpStatus))
    case ValidationFailure(messages) =>
      Some(ValidationError(messages))
    case Unmapped => None
  }

  /** An HTTP 400 exception and `bad_request` produce the same response. */
  lemma HttpBadRequestIsBadRequest(detail: string, format: int -> string)
    ensures Handle(HttpException(BadRequestStatus, detail), format) == Some(BadRequest(detail))
  {
    var r := Handle(HttpException(BadRequestStatus, detail), format).value;
    BadRequestInverse(r);
  }

  /**
   * The client can tell the authorization failures apart: two failures with the
   * same response are the same failure, up to the formatted instant.
   */
  lemma AuthResponsesIdentify(e1: Auth.AuthError, e2: Auth.AuthError, format: int -> string)
    requires Handle(AuthFailure(e1), format) == Handle(AuthFailure(e2), format)
    ensures e1.ContractExpired? ==> e2.ContractExpired? && format(e1.expiredAt) == format(e2.expiredAt)
    ensures e1.ContractRevoked? ==> e2.ContractRevoked? && format(e1.revokedAt) == format(e2.revokedAt)
    ensures !e1.ContractExpired? && !e1.ContractRevoked? ==> e1 == e2
  {
    assert MessageOf(Handle(AuthFailure(e1), format).value) == MessageOf(Handle(AuthFailure(e2), format).value);
    Auth.RenderIdentifies(e1, e2, format);
  }
}

=== FILE: hunter.dfy ===
/**
 * The phone-reliability rule of vertical/app/hunter.py. The submissions whose
 * phone hash matches the queried number are ordered by date, grouped by person
 * (name hash followed by birthday hash), and the number is flagged when one
 * person's submissions span strictly more than `delta` days. Dates are day
 * numbers (the proleptic Gregorian ordinal `date.toordinal` gives) and the hash
 * function is a parameter.
 */
module Hunter {
  import opened Common

  /** A row of the `hundata` table. */
  datatype Submission = Submission(
    id: string,
    date: int,
    phoneHash: string,
    nameHash: string,
    birthdayHash: string)

  datatype Period = Period(registeredAt: int, updatedAt: int)

  datatype Reliability = Reliability(status: bool, period: Option<Period>)

  /** `resolve_person_key`. */
  function PersonKey(s: Submission): string {
    s.nameHash + s.birthdayHash
  }

  /**
   * With hashes of one fixed width (hex digests are), two submissions share a
   * person key exactly when they share both hashes.
   */
  lemma PersonKeyInjective(a: Submission, b: Submission)
    requires |a.nameHash| == |b.nameHash|
    ensures PersonKey(a) == PersonKey(b) <==> a.nameHash == b.nameHash && a.birthdayHash == b.birthdayHash
  {
    var n := |a.nameHash|;
    if PersonKey(a) == PersonKey(b) {
      assert a.nameHash == PersonKey(a)[..n] == PersonKey(b)[..n] == b.nameHash;
      assert a.birthdayHash == PersonKey(a)[n..] == PersonKey(b)[n..] == b.birthdayHash;
    }
  }

  // ---------------------------------------------------------------------------
  // The query: filter by phone hash, order by date.
  // ---------------------------------------------------------------------------

  /** `WHERE tel = hash`, in table order. */
  function Matching(table: seq<Submission>, hash: string): (r: seq<Submission>)
    ensures forall x :: x in r <==> x in table && x.phoneHash == hash
    ensures |r| <= |table|
  {
    if table == [] then []
    else if table[0].phoneHash == hash then [table[0]] + Matching(table[1..], hash)
    else Matching(table[1..], hash)
  }

  predicate SortedByDate(s: seq<Submission>) {
    forall i, j :: 0 <= i < j < |s| ==> s[i].date <= s[j].date
  }

  lemma SortedCons(a: Submission, t: seq<Submission>)
    requires SortedByDate(t)
    requires forall y :: y in t ==> a.date <= y.date
    ensures SortedByDate([a] + t)
  {
    var r := [a] + t;
    forall i, j | 0 <= i < j < |r| ensures r[i].date <= r[j].date {
      assert r[j] == t[j - 1];
      if i > 0 {
        assert r[i] == t[i - 1];
      }
    }
  }

  /** Insertion of one submission before the first later-or-equal date. */
  function Insert(x: Submission, s: seq<Submission>): (r: seq<Submission>)
    requires SortedByDate(s)
    ensures SortedByDate(r)
    ensures forall y :: y in r ==> y == x || y in s
    ensures multiset(r) == multiset(s) + multiset{x}
  {
    if s == [] || x.date <= s[0].date then
      SortedCons(x, s);
      [x] + s
    else
      var t := Insert(x, s[1..]);
      SortedCons(s[0], t);
      assert s == [s[0]] + s[1..];
      [s[0]] + t
  }

  /** `ORDER BY date` as a stable insertion sort. */
  function SortByDate(xs: seq<Submission>): (r: seq<Submission>)
    ensures SortedByDate(r)
    ensures multiset(r) == multiset(xs)
  {
    if xs == [] then []
    else
      assert xs == [xs[0]] + xs[1..];
      Insert(xs[0], SortByDate(xs[1..]))
  }

  // ---------------------------------------------------------------------------
  // Grouping: `groups[key].append(submission)` in a dict that keeps the order in
  // which keys first appear.
  // ---------------------------------------------------------------------------

  datatype Group = Group(key: string, members: seq<Submission>)

  /** The submissions of `xs` with person key `k`, in their order in `xs`. */
  function OfPerson(xs: seq<Submission>, k: string): (r: seq<Submission>)
    ensures forall x :: x in r <==> x in xs && PersonKey(x) == k
  {
    if xs == [] then []
    else
      var last := xs[|xs| - 1];
      assert xs == xs[..|xs| - 1] + [last];
      OfPerson(xs[..|xs| - 1], k) + (if PersonKey(last) == k then [last] else [])
  }

  /** One loop iteration: append to the submission's group, or open a new one at the end. */
  function AddToGroups(gs: seq<Group>, x: Submission): (r: seq<Group>)
    decreases |gs|
  {
    if gs == [] then [Group(PersonKey(x), [x])]
    else if gs[0].key == PersonKey(x) then [Group(gs[0].key, gs[0].members + [x])] + gs[1..]
    else [gs[0]] + AddToGroups(gs[1..], x)
  }

  /** The `defaultdict(list)` after the loop over `xs`. */
  function GroupByPerson(xs: seq<Submission>): seq<Group> {
    if xs == [] then []
    else AddToGroups(GroupByPerson(xs[..|xs| - 1]), xs[|xs| - 1])
  }

  predicate DistinctKeys(gs: seq<Group>) {
    forall i, j :: 0 <= i < j < |gs| ==> gs[i].key != gs[j].key
  }

  /** Every submission of `xs` has its person's group in `gs`. */
  predicate Covers(gs: seq<Group>, xs: seq<Submission>) {
    forall x :: x in xs ==> exists i :: 0 <= i < |gs| && gs[i].key == PersonKey(x)
  }

  /** Each group of `gs` holds exactly its person's submissions of `xs`. */
  predicate HoldsOwn(gs: seq<Group>, xs: seq<Submission>) {
    forall i :: 0 <= i < |gs| ==> gs[i].members == OfPerson(xs, gs[i].key)
  }

  /** What the dictionary holds after the loop over `xs`. */
  predicate GroupsOf(gs: seq<Group>, xs: seq<Submission>) {
    && DistinctKeys(gs)
    && HoldsOwn(gs, xs)
    && (forall i :: 0 <= i < |gs| ==> gs[i].members != [])
    && Covers(gs, xs)
  }

  lemma {:induction false} AddToExisting(gs: seq<Group>, x: Submission, j: nat)
    requires DistinctKeys(gs) && j < |gs| && gs[j].key == PersonKey(x)
    ensures AddToGroups(gs, x) == gs[j := Group(gs[j].key, gs[j].members + [x])]
  {
    if j > 0 {
      assert gs[0].key != gs[j].key;
      AddToExisting(gs[1..], x, j - 1);
      assert gs[1..][j - 1 := Group(gs[j].key, gs[j].members + [x])]
          == gs[j := Group(gs[j].key, gs[j].members + [x])][1..];
    }
  }

  lemma {:induction false} AddToFresh(gs: seq<Group>, x: Submission)
    requires forall i :: 0 <= i < |gs| ==> gs[i].key != PersonKey(x)
    ensures AddToGroups(gs, x) == gs + [Group(PersonKey(x), [x])]
  {
    if gs != [] {
      AddToFresh(gs[1..], x);
      assert gs == [gs[0]] + gs[1..];
    }
  }

  lemma OfPersonSnoc(xs: seq<Submission>, x: Submission, k: string)
    ensures OfPerson(xs + [x], k) == OfPerson(xs, k) + (if PersonKey(x) == k then [x] else [])
  {
    assert (xs + [x])[..|xs|] == xs;
  }

  lemma CoversStep(gs: seq<Group>, r: seq<Group>, xs: seq<Submission>, x: Submission)
    requires Covers(gs, xs) && |gs| <= |r|
    requires forall i :: 0 <= i < |gs| ==> r[i].key == gs[i].key
    requires exists i :: 0 <= i < |r| && r[i].key == PersonKey(x)
    ensures Covers(r, xs + [x])
  {
    forall y | y in xs + [x] ensures exists i :: 0 <= i < |r| && r[i].key == PersonKey(y) {
      if y != x {
        var i :| 0 <= i < |gs| && gs[i].key == PersonKey(y);
        assert r[i].key == PersonKey(y);
      }
    }
  }

  lemma HoldsOwnExisting(gs: seq<Group>, xs: seq<Submission>, x: Submission, j: nat)
    requires HoldsOwn(gs, xs) && DistinctKeys(gs) && j < |gs| && gs[j].key == PersonKey(x)
    ensures HoldsOwn(gs[j := Group(gs[j].key, gs[j].members + [x])], xs + [x])
  {
    var r := gs[j := Group(gs[j].key, gs[j].members + [x])];
    forall i | 0 <= i < |r| ensures r[i].members == OfPerson(xs + [x], r[i].key) {
      OfPersonSnoc(xs, x, gs[i].key);
    }
  }

  lemma HoldsOwnFresh(gs: seq<Group>, xs: seq<Submission>, x: Submission)
    requires HoldsOwn(gs, xs) && OfPerson(xs, PersonKey(x)) == []
    requires forall i :: 0 <= i < |gs| ==> gs[i].key != PersonKey(x)
    ensures HoldsOwn(gs + [Group(PersonKey(x), [x])], xs + [x])
  {
    var r := gs + [Group(PersonKey(x), [x])];
    forall i | 0 <= i < |r| ensures r[i].members == OfPerson(xs + [x], r[i].key) {
      OfPersonSnoc(xs, x, r[i].key);
    }
  }

  /** The loop step for a person already seen: the group grows by one at its end. */
  lemma AddExistingStep(gs: seq<Group>, xs: seq<Submission>, x: Submission, j: nat)
    requires GroupsOf(gs, xs) && j < |gs| && gs[j].key == PersonKey(x)
    ensures GroupsOf(gs[j := Group(gs[j].key, gs[j].members + [x])], xs + [x])
  {
    var r := gs[j := Group(gs[j].key, gs[j].members + [x])];
    assert HoldsOwn(gs, xs) && Covers(gs, xs);
    HoldsOwnExisting(gs, xs, x, j);
    assert r[j].key == PersonKey(x);
    CoversStep(gs, r, xs, x);
  }

  /** A person without a group has no submissions yet. */
  lemma NoneOfPerson(gs: seq<Group>, xs: seq<Submission>, k: string)
    requires Covers(gs, xs)
    requires forall i :: 0 <= i < |gs| ==> gs[i].key != k
    ensures OfPerson(xs, k) == []
  {
    forall y | y in xs ensures PersonKey(y) != k {
      var i :| 0 <= i < |gs| && gs[i].key == PersonKey(y);
    }
  }

  /** The loop step for a new person: a one-element group is opened at the end. */
  lemma AddFreshStep(gs: seq<Group>, xs: seq<Submission>, x: Submission)
    requires GroupsOf(gs, xs)
    requires forall i :: 0 <= i < |gs| ==> gs[i].key != PersonKey(x)
    ensures GroupsOf(gs + [Group(PersonKey(x), [x])], xs + [x])
  {
    var k := PersonKey(x);
    var r := gs + [Group(k, [x])];
    assert HoldsOwn(gs, xs) && Covers(gs, xs);
    NoneOfPerson(gs, xs, k);
    HoldsOwnFresh(gs, xs, x);
    assert r[|gs|].key == k;
    CoversStep(gs, r, xs, x);
    DistinctKeysAppend(gs, Group(k, [x]));
    assert forall i :: 0 <= i < |r| ==> r[i].members != [] by {
      assert forall i :: 0 <= i < |gs| ==> r[i] == gs[i];
    }
  }

  lemma DistinctKeysAppend(gs: seq<Group>, g: Group)
    requires DistinctKeys(gs)
    requires forall i :: 0 <= i < |gs| ==> gs[i].key != g.key
    ensures DistinctKeys(gs + [g])
  {
  }

  /** One loop iteration keeps the dictionary describing the prefix seen so far. */
  lemma AddToGroupsStep(gs: seq<Group>, xs: seq<Submission>, x: Submission)
    requires GroupsOf(gs, xs)
    ensures GroupsOf(AddToGroups(gs, x), xs + [x])
  {
    if j :| 0 <= j < |gs| && gs[j].key == PersonKey(x) {
      AddToExisting(gs, x, j);
      AddExistingStep(gs, xs, x, j);
    } else {
      AddToFresh(gs, x);
      AddFreshStep(gs, xs, x);
    }
  }

  /** The grouping loop builds one group per person, holding that person's submissions in order. */
  lemma {:induction false} GroupByPersonGroups(xs: seq<Submission>)
    ensures GroupsOf(GroupByPerson(xs), xs)
  {
    if xs != [] {
      var init := xs[..|xs| - 1];
      GroupByPersonGroups(init);
      AddToGroupsStep(GroupByPerson(init), init, xs[|xs| - 1]);
      InitLast(xs);
    }
  }

  lemma EveryoneGrouped(gs: seq<Group>, xs: seq<Submission>)
    requires HoldsOwn(gs, xs) && Covers(gs, xs)
    ensures forall x :: x in xs ==> exists i :: 0 <= i < |gs| && x in gs[i].members
  {
    forall x | x in xs ensures exists i :: 0 <= i < |gs| && x in gs[i].members {
      var i :| 0 <= i < |gs| && gs[i].key == PersonKey(x);
      assert gs[i].members == OfPerson(xs, gs[i].key);
      assert x in gs[i].members;
    }
  }

  lemma GroupedByOwnKey(gs: seq<Group>, xs: seq<Submission>)
    requires HoldsOwn(gs, xs)
    ensures forall x, i :: 0 <= i < |gs| && x in gs[i].members ==> x in xs && gs[i].key == PersonKey(x)
  {
    forall x, i | 0 <= i < |gs| && x in gs[i].members ensures x in xs && gs[i].key == PersonKey(x) {
      assert gs[i].members == OfPerson(xs, gs[i].key);
    }
  }

  lemma GroupsSorted(gs: seq<Group>, xs: seq<Submission>)
    requires HoldsOwn(gs, xs) && SortedByDate(xs)
    ensures forall i :: 0 <= i < |gs| ==> SortedByDate(gs[i].members)
  {
    forall i | 0 <= i < |gs| ensures SortedByDate(gs[i].members) {
      assert gs[i].members == OfPerson(xs, gs[i].key);
      OfPersonSorted(xs, gs[i].key);
    }
  }

  /**
   * `gs` partitions `xs` by person: one group per person, each submission lies in
   * a group, every group member belongs to that group's person, and each group is
   * in date order.
   */
  predicate PartitionsByPerson(gs: seq<Group>, xs: seq<Submission>) {
    && DistinctKeys(gs)
    && (forall x :: x in xs ==> exists i :: 0 <= i < |gs| && x in gs[i].members)
    && (forall x, i :: 0 <= i < |gs| && x in gs[i].members ==> x in xs && gs[i].key == PersonKey(x))
    && (forall i :: 0 <= i < |gs| ==> SortedByDate(gs[i].members))
  }

  /** Grouping date-ordered submissions partitions them by person, keeping date order. */
  lemma GroupingPartitions(xs: seq<Submission>)
    requires SortedByDate(xs)
    ensures PartitionsByPerson(GroupByPerson(xs), xs)
  {
    var gs := GroupByPerson(xs);
    GroupByPersonGroups(xs);
    EveryoneGrouped(gs, xs);
    GroupedByOwnKey(gs, xs);
    GroupsSorted(gs, xs);
  }

  /** Picking one person's submissions out of a date-ordered list keeps them date-ordered. */
  lemma {:induction false} OfPersonSorted(xs: seq<Submission>, k: string)
    requires SortedByDate(xs)
    ensures SortedByDate(OfPerson(xs, k))
  {
    if xs != [] {
      var init := xs[..|xs| - 1];
      var last := xs[|xs| - 1];
      assert SortedByDate(init);
      OfPersonSorted(init, k);
      forall y | y in OfPerson(init, k) ensures y.date <= last.date {
        var i :| 0 <= i < |init| && init[i] == y;
        assert xs[i] == y;
      }
    }
  }

  // ---------------------------------------------------------------------------
  // The scan over the groups and the rule itself.
  // ---------------------------------------------------------------------------

  /** The rule for one group: its first date plus `delta` is strictly before its last date. */
  predicate Hit(g: Group, delta: int) {
    g.members != [] && g.members[0].date + delta < g.members[|g.members| - 1].date
  }

  /** The `for submissions in groups.values()` loop with its early `return True`. */
  function AnyHit(gs: seq<Group>, delta: int): (r: bool)
    ensures r <==> exists i :: 0 <= i < |gs| && Hit(gs[i], delta)
  {
    if gs == [] then false
    else if Hit(gs[0], delta) then true
    else
      var r := AnyHit(gs[1..], delta);
      assert forall i :: 1 <= i < |gs| ==> gs[i] == gs[1..][i - 1];
      r
  }

  /** `PhoneService.verify`. */
  function Verify(number: string, table: seq<Submission>, makeHash: string -> string, delta: int): (r: Reliability)
    ensures r.status ==> r.period.Some?
    ensures r.period.None? <==> forall x :: x in table ==> x.phoneHash != makeHash(number)
  {
    var hash := makeHash(number);
    var subs := SortByDate(Matching(table, hash));
    if subs == [] then
      Reliability(false, None)
    else
      assert subs[0] in multiset(subs);
      var period := Period(subs[0].date, subs[|subs| - 1].date);
      if AnyHit(GroupByPerson(subs), delta) then Reliability(true, Some(period))
      else Reliability(false, Some(period))
  }

  // ---------------------------------------------------------------------------
  // The rule, stated without reference to order or grouping.
  // ---------------------------------------------------------------------------

  /** Two submissions of one person in `xs`, more than `delta` days apart. */
  ghost predicate SpansOver(xs: seq<Submission>, delta: int) {
    exists a, b :: a in xs && b in xs && PersonKey(a) == PersonKey(b) && a.date + delta < b.date
  }

  lemma SortedEnds(s: seq<Submission>, x: Submission)
    requires SortedByDate(s) && x in s
    ensures s[0].date <= x.date <= s[|s| - 1].date
  {
  }

  lemma HitIsSpan(gs: seq<Group>, xs: seq<Submission>, delta: int)
    requires PartitionsByPerson(gs, xs)
    ensures AnyHit(gs, delta) ==> SpansOver(xs, delta)
  {
    if AnyHit(gs, delta) {
      var i :| 0 <= i < |gs| && Hit(gs[i], delta);
      var m := gs[i].members;
      assert m[0] in m && m[|m| - 1] in m;
      assert PersonKey(m[0]) == gs[i].key == PersonKey(m[|m| - 1]);
    }
  }

  lemma GroupOf(gs: seq<Group>, xs: seq<Submission>, x: Submission) returns (i: nat)
    requires PartitionsByPerson(gs, xs) && x in xs
    ensures i < |gs| && x in gs[i].members && gs[i].key == PersonKey(x)
    ensures SortedByDate(gs[i].members)
  {
    i :| 0 <= i < |gs| && x in gs[i].members;
  }

  /** Distinct keys: a key names at most one group. */
  lemma SameKeySameGroup(gs: seq<Group>, i: nat, j: nat)
    requires DistinctKeys(gs) && i < |gs| && j < |gs| && gs[i].key == gs[j].key
    ensures i == j
  {
  }

  lemma SpanIsHit(gs: seq<Group>, xs: seq<Submission>, delta: int)
    requires PartitionsByPerson(gs, xs)
    ensures SpansOver(xs, delta) ==> AnyHit(gs, delta)
  {
    if SpansOver(xs, delta) {
      var a, b :| a in xs && b in xs && PersonKey(a) == PersonKey(b) && a.date + delta < b.date;
      var i := GroupOf(gs, xs, a);
      var j := GroupOf(gs, xs, b);
      SameKeySameGroup(gs, i, j);
      var m := gs[i].members;
      SortedEnds(m, a);
      SortedEnds(m, b);
      assert m[0].date + delta < m[|m| - 1].date;
      assert Hit(gs[i], delta);
    }
  }

  /** The scan over the groups finds a hit exactly when one person's submissions span more than `delta`. */
  lemma AnyHitMeaning(xs: seq<Submission>, delta: int)
    requires SortedByDate(xs)
    ensures AnyHit(GroupByPerson(xs), delta) <==> SpansOver(xs, delta)
  {
    GroupingPartitions(xs);
    HitIsSpan(GroupByPerson(xs), xs, delta);
    SpanIsHit(GroupByPerson(xs), xs, delta);
  }

  /** `x` is one of the submissions on record for the number with hash `hash`. */
  predicate Matched(table: seq<Submission>, hash: string, x: Submission) {
    x in table && x.phoneHash == hash
  }

  /** `subs` holds exactly the matched submissions of `table`. */
  ghost predicate Selects(subs: seq<Submission>, table: seq<Submission>, hash: string) {
    forall x :: x in subs <==> Matched(table, hash, x)
  }

  /** Two matched submissions of one person, more than `delta` days apart. */
  ghost predicate Flagged(table: seq<Submission>, hash: string, delta: int) {
    exists a, b :: Matched(table, hash, a) && Matched(table, hash, b)
      && PersonKey(a) == PersonKey(b) && a.date + delta < b.date
  }

  /** `d` is the earliest matched date. */
  ghost predicate IsFirstDate(table: seq<Submission>, hash: string, d: int) {
    (exists x :: Matched(table, hash, x) && x.date == d)
    && forall x :: Matched(table, hash, x) ==> d <= x.date
  }

  /** `d` is the latest matched date. */
  ghost predicate IsLastDate(table: seq<Submission>, hash: string, d: int) {
    (exists x :: Matched(table, hash, x) && x.date == d)
    && forall x :: Matched(table, hash, x) ==> x.date <= d
  }

  /** What a reliability verdict for `table` means, independently of how it is computed. */
  ghost predicate Describes(r: Reliability, table: seq<Submission>, hash: string, delta: int) {
    && (r.period.None? <==> forall x :: !Matched(table, hash, x))
    && (r.period.Some? ==> IsFirstDate(table, hash, r.period.value.registeredAt)
                           && IsLastDate(table, hash, r.period.value.updatedAt))
    && (r.status <==> Flagged(table, hash, delta))
  }

  lemma QueryResult(table: seq<Submission>, hash: string)
    ensures SortedByDate(SortByDate(Matching(table, hash)))
    ensures Selects(SortByDate(Matching(table, hash)), table, hash)
  {
    var subs := SortByDate(Matching(table, hash));
    forall x ensures x in subs <==> Matched(table, hash, x) {
      assert x in subs <==> x in multiset(subs);
    }
  }

  lemma SpansOverSelected(subs: seq<Submission>, table: seq<Submission>, hash: string, delta: int)
    requires Selects(subs, table, hash)
    ensures SpansOver(subs, delta) <==> Flagged(table, hash, delta)
  {
    if Flagged(table, hash, delta) {
      var a, b :| Matched(table, hash, a) && Matched(table, hash, b)
        && PersonKey(a) == PersonKey(b) && a.date + delta < b.date;
      assert a in subs && b in subs;
    }
  }

  lemma PeriodOfSelected(subs: seq<Submission>, table: seq<Submission>, hash: string)
    requires Selects(subs, table, hash) && SortedByDate(subs) && subs != []
    ensures IsFirstDate(table, hash, subs[0].date)
    ensures IsLastDate(table, hash, subs[|subs| - 1].date)
  {
    assert subs[0] in subs && subs[|subs| - 1] in subs;
    forall x | Matched(table, hash, x) ensures subs[0].date <= x.date <= subs[|subs| - 1].date {
      SortedEnds(subs, x);
    }
  }

  /**
   * The result of `verify`: no period when nothing matches, else the earliest and
   * latest matched dates, and a status that holds exactly when one person has two
   * matched submissions more than `delta` days apart.
   */
  lemma VerifyMeaning(number: string, table: seq<Submission>, makeHash: string -> string, delta: int)
    ensures Describes(Verify(number, table, makeHash, delta), table, makeHash(number), delta)
  {
    var hash := makeHash(number);
    var subs := SortByDate(Matching(table, hash));
    var r := Verify(number, table, makeHash, delta);
    QueryResult(table, hash);
    SpansOverSelected(subs, table, hash, delta);
    if subs == [] {
      assert r == Reliability(false, None);
    } else {
      assert r.period == Some(Period(subs[0].date, subs[|subs| - 1].date));
      assert r.status == AnyHit(GroupByPerson(subs), delta);
      PeriodOfSelected(subs, table, hash);
      AnyHitMeaning(subs, delta);
    }
  }

  /** Two verdicts that both describe the same matches are equal: the meaning fixes the result. */
  lemma DescribesUniquely(r1: Reliability, r2: Reliability, t1: seq<Submission>, t2: seq<Submission>, hash: string, delta: int)
    requires forall x :: Matched(t1, hash, x) <==> Matched(t2, hash, x)
    requires Describes(r1, t1, hash, delta) && Describes(r2, t2, hash, delta)
    ensures r1 == r2
  {
    assert Flagged(t1, hash, delta) <==> Flagged(t2, hash, delta);
    if r1.period.Some? {
      var p1, p2 := r1.period.value, r2.period.value;
      var a1 :| Matched(t1, hash, a1) && a1.date == p1.registeredAt;
      var a2 :| Matched(t2, hash, a2) && a2.date == p2.registeredAt;
      var b1 :| Matched(t1, hash, b1) && b1.date == p1.updatedAt;
      var b2 :| Matched(t2, hash, b2) && b2.date == p2.updatedAt;
      assert p1 == p2;
    }
  }

  /** Submissions for other numbers, and the order of the table, do not affect the result. */
  lemma VerifyDependsOnlyOnMatches(
    number: string, t1: seq<Submission>, t2: seq<Submission>, makeHash: string -> string, delta: int)
    requires forall x :: Matched(t1, makeHash(number), x) <==> Matched(t2, makeHash(number), x)
    ensures Verify(number, t1, makeHash, delta) == Verify(number, t2, makeHash, delta)
  {
    VerifyMeaning(number, t1, makeHash, delta);
    VerifyMeaning(number, t2, makeHash, delta);
    DescribesUniquely(Verify(number, t1, makeHash, delta), Verify(number, t2, makeHash, delta),
                      t1, t2, makeHash(number), delta);
  }

  /**
   * A number on record exactly twice, both times for one person: a span of exactly
   * `delta` days is not a hit, one more day is, and the period runs from the first
   * to the second date either way.
   */
  lemma TwoSubmissions(number: string, table: seq<Submission>, makeHash: string -> string, delta: int,
                       a: Submission, b: Submission)
    requires forall x :: Matched(table, makeHash(number), x) <==> x == a || x == b
    requires PersonKey(a) == PersonKey(b) && a.date <= b.date
    ensures Verify(number, table, makeHash, delta).period == Some(Period(a.date, b.date))
    ensures Verify(number, table, makeHash, delta).status <==> a.date + delta < b.date
  {
    VerifyMeaning(number, table, makeHash, delta);
    DescribesTwo(Verify(number, table, makeHash, delta), table, makeHash(number), delta, a, b);
  }

  /** Any verdict that describes a table with exactly two matches of one person. */
  lemma DescribesTwo(r: Reliability, table: seq<Submission>, hash: string, delta: int, a: Submission, b: Submission)
    requires Describes(r, table, hash, delta)
    requires forall x :: Matched(table, hash, x) <==> x == a || x == b
    requires PersonKey(a) == PersonKey(b) && a.date <= b.date
    ensures r.period == Some(Period(a.date, b.date))
    ensures r.status <==> a.date + delta < b.date
  {
    assert Matched(table, hash, a) && Matched(table, hash, b);
    var p := r.period.value;
    var x :| Matched(table, hash, x) && x.date == p.registeredAt;
    assert x == a || x == b;
    assert p.registeredAt == a.date;
    var y :| Matched(table, hash, y) && y.date == p.updatedAt;
    assert y == a || y == b;
    assert p.updatedAt == b.date;
    assert a.date + delta < b.date ==> Flagged(table, hash, delta);
    if r.status {
      var u, v :| Matched(table, hash, u) && Matched(table, hash, v)
                  && PersonKey(u) == PersonKey(v) && u.date + delta < v.date;
      assert u == a || u == b;
      assert v == a || v == b;
    }
  }


  /** Day numbers of 2000-01-01, 2020-01-01 and 2020-05-01. */
  const Jan2000: int := 730120
  const Jan2020: int := 737425
  const May2020: int := 737546

  /**
   * With a 180-day rule, one person on record on 2020-01-01 and 2020-05-01 is not
   * flagged, while one on record on 2000-01-01 and 2020-01-01 is; both get a period.
   */
  lemma RuleExamples(number: string, table: seq<Submission>, makeHash: string -> string, a: Submission, b: Submission)
    requires forall x :: Matched(table, makeHash(number), x) <==> x == a || x == b
    requires PersonKey(a) == PersonKey(b)
    ensures a.date == Jan2020 && b.date == May2020 ==>
      Verify(number, table, makeHash, 180) == Reliability(false, Some(Period(Jan2020, May2020)))
    ensures a.date == Jan2000 && b.date == Jan2020 ==>
      Verify(number, table, makeHash, 180) == Reliability(true, Some(Period(Jan2000, Jan2020)))
  {
    if a.date <= b.date {
      TwoSubmissions(number, table, makeHash, 180, a, b);
    }
  }
}

=== FILE: json.dfy ===
/**
 * Decoded JSON documents as the service handles them: request payloads after
 * parsing and response contents before serialisation. Numbers are integers
 * only; floating point is not part of the model.
 */
module Json {
  import opened Common

  datatype Json =
    | JNull
    | JBool(b: bool)
    | JInt(i: int)
    | JString(s: string)
    | JArray(items: seq<Json>)
    | JObject(fields: map<string, Json>)

  /** Python truthiness of the decoded value (`x or default` picks `default` when false). */
  predicate Truthy(j: Json) {
    match j
    case JNull => false
    case JBool(b) => b
    case JInt(i) => i != 0
    case JString(s) => s != []
    case JArray(items) => items != []
    case JObject(fields) => fields != map[]
  }

  /** The empty object `{}`. */
  const Empty: Json := JObject(map[])

  /** The value stored under `key` in an object, if any. */
  function Member(j: Json, key: string): Option<Json> {
    if j.JObject? && key in j.fields then Some(j.fields[key]) else None
  }

  /** The key set of an object, empty for every other kind of value. */
  function Keys(j: Json): set<string> {
    if j.JObject? then j.fields.Keys else {}
  }
}

=== FILE: middlewares.dfy ===
/**
 * The middleware stack of vertical/app/middlewares.py, outermost first:
 * request-id check, catch-all for unhandled exceptions, Content-Type check,
 * JSON body parsing, the access log that records every request and its
 * response, and the hunter session scope. Below the stack sit the router,
 * Starlette's exception handlers and, on protected routes, `authorize`.
 *
 * Each layer is a function from the request and the store to a `Flow`: a
 * response together with the store after it, or an exception that escapes
 * the layer (with whatever the store holds by then). The route handler
 * itself is abstract: given the parsed body it either produces a response or
 * raises.
 */
module Middlewares {
  import opened Common
  import opened Json
  import Text
  import Uuid
  import opened Store
  import Auth
  import opened Responses
  import opened Adapters
  import opened ExceptionHandlers

  /**
   * What the service takes from outside: the JSON parser, UTF-8 decoding,
   * timestamp formatting, the clock, and the key the database generates for
   * the next identification row.
   */
  datatype Env = Env(
    parseJson: JsonParser,
    decodeUtf8: seq<byte> -> string,
    formatTime: int -> string,
    now: int,
    freshId: string)

  /** A parser like `orjson.loads`, which rejects the empty document. */
  type JsonParser = p: seq<byte> -> Option<Json> | p([]).None? witness (b: seq<byte>) => None

  /** What a route handler does with a request. */
  datatype RouteOutcome = Handled(response: Response) | Raised(exception: Exception)

  /** A route: its handler, and whether the `auth` wrapper runs `authorize` first. */
  datatype Route =
    | Open(handler: Json -> RouteOutcome)
    | Protected(handler: Json -> RouteOutcome)

  /** A layer's result: a response, or an exception escaping it. */
  datatype Flow = Returned(response: Response, db: Db) | Threw(db: Db)

  /** The paths the access log skips. */
  const IgnoredPath: string := "/ping"
  const JsonMediaType: string := "application/json"

  const MissingIdMessage: string := "X-Request-Id header not recognized"
  const MalformedIdMessage: string := "X-Request-Id header must be in UUID format"
  const MissingContentTypeMessage: string := "Content-Type header not recognized"
  const UnparsableBodyMessage: string := "Could not parse request body"

  // ---------------------------------------------------------------------------
  // Below the middleware: exception handlers, the `auth` wrapper, the route.
  // ---------------------------------------------------------------------------

  /** Starlette's exception middleware around a route: registered exceptions become responses. */
  function Settle(outcome: RouteOutcome, db: Db, format: int -> string): (r: Flow)
    ensures r.db == db
    ensures r.Threw? <==> outcome.Raised? && outcome.exception.Unmapped?
    ensures outcome.Handled? ==> r.response == outcome.response
    ensures outcome.Raised? && r.Returned? ==> Handle(outcome.exception, format) == Some(r.response)
  {
    match outcome
    case Handled(response) => Returned(response, db)
    case Raised(e) =>
      match Handle(e, format)
      case Some(response) => Returned(response, db)
      case None => Threw(db)
  }

  /** `authorize` on the request's own headers. */
  function AuthorizeRequest(env: Env, db: Db, req: HttpRequest): Auth.Outcome {
    Auth.Authorize(db, Header(req, AuthorizationHeader), Header(req, XRequestIdHeader), env.now, env.freshId)
  }

  /** The store changes only by identifications, and only by appending. */
  predicate OnlyIdentifies(db: Db, db': Db) {
    && db'.clients == db.clients && db'.contracts == db.contracts
    && db'.requests == db.requests && db'.responses == db.responses
    && |db.identifications| <= |db'.identifications|
    && db'.identifications[..|db.identifications|] == db.identifications
  }

  /**
   * The route behind `HunterDatabaseMiddleware` (which only scopes a session).
   * A protected route runs `authorize` on a fresh `RequestAdapter` first: an
   * `AuthException` is answered by its handler without running the route, any
   * other failure of `authorize` escapes.
   */
  function Dispatch(env: Env, db: Db, req: HttpRequest, route: Route, json: Json): (r: Flow)
    ensures OnlyIdentifies(db, r.db)
    ensures route.Open? ==> r == Settle(route.handler(json), db, env.formatTime)
  {
    match route
    case Open(handler) => Settle(handler(json), db, env.formatTime)
    case Protected(handler) =>
      match AdaptRequest(req, env.decodeUtf8)
      case None => Threw(db)
      case Some(rec) =>
        var o := Auth.Authorize(db, rec.authorization, rec.identifier, env.now, env.freshId);
        match o.result
        case Ok(_) => Settle(handler(json), o.db, env.formatTime)
        case Err(Denied(e)) => Settle(Raised(AuthFailure(e)), db, env.formatTime)
        case Err(_) => Threw(db)
  }

  // ---------------------------------------------------------------------------
  // The middleware layers, innermost first.
  // ---------------------------------------------------------------------------

  /** The `INSERT INTO requests` the access log issues for `rec`; `json` is the parsed body. */
  function SaveIncoming(db: Db, rec: RequestRecord, json: Json): Step<RequestRow> {
    SaveRequest(db, rec.identifier, Some(rec.remoteAddr), rec.httpMethod, rec.path,
                if rec.body.Some? then Some(json) else None)
  }

  /** The response row holds the response the client received, under the request's id. */
  predicate ResponseLogged(db: Db, id: string, response: Response) {
    id in db.responses && db.responses[id] == ResponseRow(id, response.status, response.content)
  }

  /**
   * `AccessMiddleware`: outside the ignored paths, save the request, run the
   * inner layers, then save the response under the same id. A failed insert
   * raises, and an exception from the inner layers passes through with the
   * request saved and no response.
   */
  function Access(env: Env, db: Db, req: HttpRequest, route: Route, json: Json): (r: Flow)
    ensures req.path == IgnoredPath ==> r == Dispatch(env, db, req, route, json)
    ensures req.path != IgnoredPath && r.Threw? ==> r.db.responses == db.responses
    ensures req.path != IgnoredPath && r.Returned? ==>
      && req.client.Some? && Header(req, XRequestIdHeader).Some?
      && Header(req, XRequestIdHeader).value in r.db.requests
      && ResponseLogged(r.db, Header(req, XRequestIdHeader).value, r.response)
  {
    if req.path == IgnoredPath then Dispatch(env, db, req, route, json)
    else
      match AdaptRequest(req, env.decodeUtf8)
      case None => Threw(db)
      case Some(rec) =>
        var saved := SaveIncoming(db, rec, json);
        if saved.result.Err? then Threw(db)
        else LogResponse(Dispatch(env, saved.db, req, route, json), rec)
  }

  /** The store with the response row for `id`. */
  function Logged(db: Db, id: string, response: Response): Db {
    db.(responses := db.responses[id := ResponseRow(id, response.status, response.content)])
  }

  /**
   * The end of `AccessMiddleware`: after the inner layers answered, save the
   * response under the request's id; an exception from them passes through.
   */
  function LogResponse(inner: Flow, rec: RequestRecord): (r: Flow)
    ensures inner.Threw? ==> r == inner
    ensures r.Threw? ==> r.db == inner.db
    ensures r.Returned? ==>
      && rec.identifier.Some? && r.response == inner.response
      && r.db == Logged(inner.db, rec.identifier.value, inner.response)
      && ResponseLogged(r.db, rec.identifier.value, r.response)
    ensures (inner.Returned? && rec.identifier.Some? && rec.identifier.value in inner.db.requests
             && rec.identifier.value !in inner.db.responses
             && SmallIntMin <= inner.response.status <= SmallIntMax) ==> r.Returned?
  {
    match inner
    case Threw(_) => inner
    case Returned(response, db) =>
      var out := AdaptResponse(rec, response);
      var logged := SaveResponse(db, out.request.identifier, out.code, out.body);
      if logged.result.Err? then Threw(db) else Returned(response, logged.db)
  }

  /**
   * `JsonParserMiddleware`: a body that does not parse is refused unless it is
   * empty, in which case the route sees `{}`.
   */
  function ParseBody(env: Env, db: Db, req: HttpRequest, route: Route): (r: Flow)
    ensures env.parseJson(req.body).Some? ==> r == Access(env, db, req, route, env.parseJson(req.body).value)
    ensures req.body == [] ==> r == Access(env, db, req, route, Empty)
    ensures env.parseJson(req.body).None? && req.body != [] ==> r == Returned(BadRequest(UnparsableBodyMessage), db)
  {
    match env.parseJson(req.body)
    case Some(json) => Access(env, db, req, route, json)
    case None =>
      if req.body != [] then Returned(BadRequest(UnparsableBodyMessage), db)
      else Access(env, db, req, route, Empty)
  }

  /** The JSON the route sees when the body is accepted. */
  function BodyJson(env: Env, req: HttpRequest): Json {
    env.parseJson(req.body).GetOr(Empty)
  }

  /** The body passes `JsonParserMiddleware`. */
  predicate BodyAccepted(env: Env, req: HttpRequest) {
    env.parseJson(req.body).Some? || req.body == []
  }

  /** The Content-Type header is present and names JSON. */
  predicate ContentTypeAccepted(req: HttpRequest) {
    && Header(req, ContentTypeHeader).Some? && Header(req, ContentTypeHeader).value != []
    && Text.StartsWith(Header(req, ContentTypeHeader).value, JsonMediaType)
  }

  /** `ContentTypeMiddleware`: a missing header is a 400, a non-JSON type a 415. */
  function CheckContentType(env: Env, db: Db, req: HttpRequest, route: Route): (r: Flow)
    ensures ContentTypeAccepted(req) ==> r == ParseBody(env, db, req, route)
    ensures Header(req, ContentTypeHeader).None? || Header(req, ContentTypeHeader).value == [] ==>
      r == Returned(BadRequest(MissingContentTypeMessage), db)
    ensures Header(req, ContentTypeHeader).Some? && Header(req, ContentTypeHeader).value != []
            && !Text.StartsWith(Header(req, ContentTypeHeader).value, JsonMediaType) ==>
      r == Returned(UnsupportedMediaType(), db)
  {
    var contentType := Header(req, ContentTypeHeader);
    if contentType.None? || contentType.value == [] then Returned(BadRequest(MissingContentTypeMessage), db)
    else if !Text.StartsWith(contentType.value, JsonMediaType) then Returned(UnsupportedMediaType(), db)
    else ParseBody(env, db, req, route)
  }

  /** `ExceptionHandlerMiddleware`: whatever escapes below becomes a 500; nothing escapes it. */
  function CatchAll(env: Env, db: Db, req: HttpRequest, route: Route): (r: Flow)
    ensures r.Returned?
    ensures r.db == CheckContentType(env, db, req, route).db
    ensures CheckContentType(env, db, req, route).Returned? ==> r == CheckContentType(env, db, req, route)
    ensures CheckContentType(env, db, req, route).Threw? ==> r.response == ServerError()
  {
    match CheckContentType(env, db, req, route)
    case Returned(response, db') => Returned(response, db')
    case Threw(db') => Returned(ServerError(), db')
  }

  /** The request-id header is present and a canonical UUIDv4. */
  predicate RequestIdAccepted(req: HttpRequest) {
    Header(req, XRequestIdHeader).Some? && Uuid.IsValidUuid(Header(req, XRequestIdHeader).value)
  }

  /**
   * `RequestIdentifierMiddleware`, the outermost layer and so the whole service:
   * the request must carry a canonical UUIDv4 `X-Request-Id`, which the response
   * then echoes. It always answers.
   */
  function Serve(env: Env, db: Db, req: HttpRequest, route: Route): (r: Flow)
    ensures r.Returned?
    ensures Header(req, XRequestIdHeader).None? || Header(req, XRequestIdHeader).value == [] ==>
      r == Returned(BadRequest(MissingIdMessage), db)
    ensures Header(req, XRequestIdHeader).Some? && Header(req, XRequestIdHeader).value != []
            && !Uuid.IsValidUuid(Header(req, XRequestIdHeader).value) ==>
      r == Returned(BadRequest(MalformedIdMessage), db)
    ensures RequestIdAccepted(req) ==>
      && r.db == CatchAll(env, db, req, route).db
      && r.response == WithHeader(CatchAll(env, db, req, route).response, XRequestIdHeader,
                                  Header(req, XRequestIdHeader).value)
    ensures XRequestIdHeader in r.response.headers <==> RequestIdAccepted(req)
  {
    var requestId := Header(req, XRequestIdHeader);
    if requestId.None? || requestId.value == [] then Returned(BadRequest(MissingIdMessage), db)
    else if !Uuid.IsValidUuid(requestId.value) then Returned(BadRequest(MalformedIdMessage), db)
    else
      var inner := CatchAll(env, db, req, route);
      Returned(WithHeader(inner.response, XRequestIdHeader, requestId.value), inner.db)
  }

  // ---------------------------------------------------------------------------
  // What the stack as a whole guarantees.
  // ---------------------------------------------------------------------------

  /** The request gets past the three checks in front of the access log. */
  predicate GatesPassed(env: Env, req: HttpRequest) {
    RequestIdAccepted(req) && ContentTypeAccepted(req) && BodyAccepted(env, req)
  }

  /** Past the checks, the response is the access log's, with the request id added, or the catch-all 500. */
  lemma ServeThroughAccess(env: Env, db: Db, req: HttpRequest, route: Route)
    requires GatesPassed(env, req)
    ensures var a := Access(env, db, req, route, BodyJson(env, req));
            var r := Serve(env, db, req, route);
            var id := Header(req, XRequestIdHeader).value;
            && r.db == a.db
            && (a.Returned? ==> r.response == WithHeader(a.response, XRequestIdHeader, id))
            && (a.Threw? ==> r.response == WithHeader(ServerError(), XRequestIdHeader, id))
  {
    assert CheckContentType(env, db, req, route) == Access(env, db, req, route, BodyJson(env, req));
  }

  /**
   * A request refused by one of the checks is answered with 400 or 415, by
   * the first check it fails in stack order, and the store is not touched.
   */
  lemma GatesRefuseInOrder(env: Env, db: Db, req: HttpRequest, route: Route)
    requires !GatesPassed(env, req)
    ensures Serve(env, db, req, route).db == db
    ensures !RequestIdAccepted(req) ==>
      Serve(env, db, req, route).response in {BadRequest(MissingIdMessage), BadRequest(MalformedIdMessage)}
    ensures RequestIdAccepted(req) && !ContentTypeAccepted(req) ==>
      && Serve(env, db, req, route).response.status in {BadRequestStatus, UnsupportedMediaTypeStatus}
      && MessageOf(Serve(env, db, req, route).response) in {Some(MissingContentTypeMessage), Some(UnsupportedMessage)}
    ensures RequestIdAccepted(req) && ContentTypeAccepted(req) ==>
      && Serve(env, db, req, route).response.status == BadRequestStatus
      && MessageOf(Serve(env, db, req, route).response) == Some(UnparsableBodyMessage)
  {
    if RequestIdAccepted(req) {
      InnerGatesRefuse(env, db, req, route);
    }
  }

  /** Below the request-id check, a refused content type or body is answered on the unchanged store. */
  lemma InnerGatesRefuse(env: Env, db: Db, req: HttpRequest, route: Route)
    requires !ContentTypeAccepted(req) || !BodyAccepted(env, req)
    ensures CheckContentType(env, db, req, route).db == db
    ensures !ContentTypeAccepted(req) ==>
      CheckContentType(env, db, req, route) in
        {Returned(BadRequest(MissingContentTypeMessage), db), Returned(UnsupportedMediaType(), db)}
    ensures ContentTypeAccepted(req) ==>
      CheckContentType(env, db, req, route) == Returned(BadRequest(UnparsableBodyMessage), db)
  {
  }

  /** Requests to the ignored path leave no trace in the audit tables. */
  lemma IgnoredPathNotRecorded(env: Env, db: Db, req: HttpRequest, route: Route)
    requires req.path == IgnoredPath
    ensures Serve(env, db, req, route).db.requests == db.requests
    ensures Serve(env, db, req, route).db.responses == db.responses
  {
    if GatesPassed(env, req) {
      var json := BodyJson(env, req);
      assert CheckContentType(env, db, req, route) == Access(env, db, req, route, json);
      assert Access(env, db, req, route, json) == Dispatch(env, db, req, route, json);
    } else {
      GatesRefuseInOrder(env, db, req, route);
    }
  }

  /**
   * Past the checks and outside the ignored path, the client either receives
   * the response that was logged under its request id (with the request row
   * present), or the catch-all 500 with no response logged.
   */
  lemma EveryAnswerLogged(env: Env, db: Db, req: HttpRequest, route: Route)
    requires GatesPassed(env, req) && req.path != IgnoredPath
    ensures var r := Serve(env, db, req, route);
            var id := Header(req, XRequestIdHeader).value;
            || (id in r.db.requests && ResponseLogged(r.db, id, r.response))
            || (r.response == WithHeader(ServerError(), XRequestIdHeader, id) && r.db.responses == db.responses)
  {
    var json := BodyJson(env, req);
    var a := Access(env, db, req, route, json);
    assert CheckContentType(env, db, req, route) == a;
    var id := Header(req, XRequestIdHeader).value;
    var r := Serve(env, db, req, route);
    assert r.db == a.db;
    if a.Returned? {
      assert r.response.status == a.response.status && r.response.content == a.response.content;
    }
  }

  /**
   * The request row can be written: the server reports a peer, the id is new,
   * and the address, method and path can be assigned to their columns.
   */
  predicate Admissible(db: Db, req: HttpRequest) {
    && req.client.Some? && Header(req, XRequestIdHeader).Some?
    && Header(req, XRequestIdHeader).value !in db.requests
    && FitsVarchar(RemoteAddr(req.client.value), RemoteWidth)
    && FitsVarchar(req.httpMethod, MethodWidth) && FitsVarchar(req.path, PathWidth)
  }

  /** The access log's request insert succeeds exactly for admissible requests. */
  lemma SaveIncomingIff(env: Env, db: Db, req: HttpRequest, json: Json)
    requires req.client.Some?
    ensures SaveIncoming(db, AdaptRequest(req, env.decodeUtf8).value, json).result.Ok? <==> Admissible(db, req)
  {
  }

  /**
   * A route that raises an exception no handler is registered for: the client
   * gets the catch-all 500 (still carrying its request id), the request row is
   * kept, and no response row is written.
   */
  lemma UnmappedExceptionAnswered500(env: Env, db: Db, req: HttpRequest, route: Route)
    requires Valid(db)
    requires GatesPassed(env, req) && req.path != IgnoredPath && Admissible(db, req)
    requires route.Open? && route.handler(BodyJson(env, req)) == Raised(Unmapped)
    ensures var r := Serve(env, db, req, route);
            var id := Header(req, XRequestIdHeader).value;
            && r.response == WithHeader(ServerError(), XRequestIdHeader, id)
            && id in r.db.requests && id !in r.db.responses
  {
    var json := BodyJson(env, req);
    var rec := AdaptRequest(req, env.decodeUtf8).value;
    var saved := SaveIncoming(db, rec, json);
    assert saved.result.Ok?;
    var inner := Dispatch(env, saved.db, req, route, json);
    assert inner == Threw(saved.db);
    assert Access(env, db, req, route, json) == inner;
    assert CheckContentType(env, db, req, route) == inner;
  }

  /**
   * A request whose row cannot be written (a replayed request id, or a method
   * or path its column cannot take: a U+0000, or a character other than a
   * space past the width) never reaches the route: the client gets the
   * catch-all 500 and the store is unchanged.
   */
  lemma UnsavableRequestAnswered500(env: Env, db: Db, req: HttpRequest, route: Route)
    requires GatesPassed(env, req) && req.path != IgnoredPath && req.client.Some?
    requires || Header(req, XRequestIdHeader).value in db.requests
             || !FitsVarchar(req.httpMethod, MethodWidth) || !FitsVarchar(req.path, PathWidth)
    ensures Serve(env, db, req, route)
         == Returned(WithHeader(ServerError(), XRequestIdHeader, Header(req, XRequestIdHeader).value), db)
  {
    var json := BodyJson(env, req);
    SaveIncomingIff(env, db, req, json);
    AccessSaveFails(env, db, req, route, json);
    ServeThroughAccess(env, db, req, route);
  }

  /** A request row that cannot be written ends the access log with an exception, before the route. */
  lemma AccessSaveFails(env: Env, db: Db, req: HttpRequest, route: Route, json: Json)
    requires req.path != IgnoredPath && req.client.Some?
    requires SaveIncoming(db, AdaptRequest(req, env.decodeUtf8).value, json).result.Err?
    ensures Access(env, db, req, route, json) == Threw(db)
  {
  }

  /** Once the request row is written, the access log runs the inner layers on the new store and logs their answer. */
  lemma AccessAfterSave(env: Env, db: Db, req: HttpRequest, route: Route, json: Json)
    requires req.path != IgnoredPath && req.client.Some?
    requires SaveIncoming(db, AdaptRequest(req, env.decodeUtf8).value, json).result.Ok?
    ensures Access(env, db, req, route, json)
         == LogResponse(Dispatch(env, SaveIncoming(db, AdaptRequest(req, env.decodeUtf8).value, json).db,
                                 req, route, json),
                        AdaptRequest(req, env.decodeUtf8).value)
  {
  }

  /** A request id the store has not seen is referenced by no response and no identification. */
  lemma NewRequestUnreferenced(db: Db, id: string)
    requires AuditValid(db) && id !in db.requests
    ensures id !in db.responses
    ensures forall i :: 0 <= i < |db.identifications| ==> db.identifications[i].requestId != id
  {
  }

  /**
   * `authorize` on a request whose row exists and is not yet identified, with
   * a current contract for its token: it appends the identification.
   */
  lemma AuthorizeFresh(env: Env, db: Db, req: HttpRequest, c: Contract)
    requires ContractsValid(db) && RequestIdAccepted(req)
    requires Header(req, XRequestIdHeader).value in db.requests
    requires forall i :: 0 <= i < |db.identifications| ==>
      db.identifications[i].requestId != Header(req, XRequestIdHeader).value
    requires Auth.ParseAuthorization(Header(req, AuthorizationHeader)).Ok?
    requires GetContractByToken(db, Auth.ParseAuthorization(Header(req, AuthorizationHeader)).value) == Some(c)
    requires !IsExpired(c, env.now) && !IsRevoked(c, env.now) && !HasIdentification(db, env.freshId)
    ensures AuthorizeRequest(env, db, req).result
         == Ok(Identification(env.freshId, Header(req, XRequestIdHeader).value, c.id))
    ensures AuthorizeRequest(env, db, req).db
         == db.(identifications := db.identifications
                  + [Identification(env.freshId, Header(req, XRequestIdHeader).value, c.id)])
  {
    var id := Header(req, XRequestIdHeader).value;
    assert Uuid.Parse(id).Some?;
    assert !HasPair(db, id, c.id);
    Auth.AuthorizeSucceedsIff(db, Header(req, AuthorizationHeader), Header(req, XRequestIdHeader),
                              env.now, env.freshId, c);
  }

  /**
   * A protected route presented with a current contract: the request row is
   * written first, `authorize` then finds it and appends exactly one
   * identification naming the request and the contract, and the route's
   * response is what the client receives and what is logged.
   */
  lemma ProtectedRouteIdentifies(env: Env, db: Db, req: HttpRequest, route: Route, c: Contract)
    requires Valid(db)
    requires GatesPassed(env, req) && req.path != IgnoredPath && Admissible(db, req)
    requires route.Protected? && route.handler(BodyJson(env, req)).Handled?
    requires SmallIntMin <= route.handler(BodyJson(env, req)).response.status <= SmallIntMax
    requires Auth.ParseAuthorization(Header(req, AuthorizationHeader)).Ok?
    requires GetContractByToken(db, Auth.ParseAuthorization(Header(req, AuthorizationHeader)).value) == Some(c)
    requires !IsExpired(c, env.now) && !IsRevoked(c, env.now) && !HasIdentification(db, env.freshId)
    ensures var r := Serve(env, db, req, route);
            var id := Header(req, XRequestIdHeader).value;
            && r.response == WithHeader(route.handler(BodyJson(env, req)).response, XRequestIdHeader, id)
            && r.db.identifications == db.identifications + [Identification(env.freshId, id, c.id)]
            && ResponseLogged(r.db, id, r.response)
  {
    AccessIdentifies(env, db, req, route, c, BodyJson(env, req));
    ServeThroughAccess(env, db, req, route);
  }

  lemma AccessIdentifies(env: Env, db: Db, req: HttpRequest, route: Route, c: Contract, json: Json)
    requires Valid(db)
    requires RequestIdAccepted(req) && req.path != IgnoredPath && Admissible(db, req)
    requires route.Protected? && route.handler(json).Handled?
    requires SmallIntMin <= route.handler(json).response.status <= SmallIntMax
    requires Auth.ParseAuthorization(Header(req, AuthorizationHeader)).Ok?
    requires GetContractByToken(db, Auth.ParseAuthorization(Header(req, AuthorizationHeader)).value) == Some(c)
    requires !IsExpired(c, env.now) && !IsRevoked(c, env.now) && !HasIdentification(db, env.freshId)
    ensures var a := Access(env, db, req, route, json);
            var id := Header(req, XRequestIdHeader).value;
            && a == Returned(route.handler(json).response, a.db)
            && a.db.identifications == db.identifications + [Identification(env.freshId, id, c.id)]
            && ResponseLogged(a.db, id, a.response)
  {
    var id := Header(req, XRequestIdHeader).value;
    var db1 := SaveUnreferenced(env, db, req, json);
    var row := Identification(env.freshId, id, c.id);
    DispatchIdentifies(env, db1, req, route, c, json);
    var db2 := Identified(db1, row);
    assert id in db2.requests && id !in db2.responses;
    AccessLogs(env, db, req, route, json, route.handler(json).response, db2);
    assert db2.identifications == db.identifications + [row];
  }

  /** When the inner layers answer on the saved store, the access log saves that answer. */
  lemma AccessLogs(env: Env, db: Db, req: HttpRequest, route: Route, json: Json, response: Response, db2: Db)
    requires req.path != IgnoredPath && req.client.Some? && Header(req, XRequestIdHeader).Some?
    requires SaveIncoming(db, AdaptRequest(req, env.decodeUtf8).value, json).result.Ok?
    requires Dispatch(env, SaveIncoming(db, AdaptRequest(req, env.decodeUtf8).value, json).db, req, route, json)
          == Returned(response, db2)
    requires Header(req, XRequestIdHeader).value in db2.requests
    requires Header(req, XRequestIdHeader).value !in db2.responses
    requires SmallIntMin <= response.status <= SmallIntMax
    ensures Access(env, db, req, route, json)
         == Returned(response, Logged(db2, Header(req, XRequestIdHeader).value, response))
  {
    AccessAfterSave(env, db, req, route, json);
  }

  /**
   * Writing an admissible request row changes only the requests, and nothing
   * in the store refers to the new row yet.
   */
  lemma SaveUnreferenced(env: Env, db: Db, req: HttpRequest, json: Json) returns (db1: Db)
    requires Valid(db) && Admissible(db, req)
    ensures var saved := SaveIncoming(db, AdaptRequest(req, env.decodeUtf8).value, json);
            saved.result.Ok? && saved.db == db1
    ensures db1 == db.(requests := db1.requests)
    ensures Header(req, XRequestIdHeader).value in db1.requests
    ensures Header(req, XRequestIdHeader).value !in db1.responses
    ensures forall i :: 0 <= i < |db1.identifications| ==>
      db1.identifications[i].requestId != Header(req, XRequestIdHeader).value
  {
    SaveIncomingIff(env, db, req, json);
    db1 := SaveIncoming(db, AdaptRequest(req, env.decodeUtf8).value, json).db;
    NewRequestUnreferenced(db, Header(req, XRequestIdHeader).value);
  }

  /** The store with one more identification. */
  function Identified(db: Db, row: Identification): Db {
    db.(identifications := db.identifications + [row])
  }

  /** A protected route whose `authorize` raises an `AuthException` answers with that exception's handler. */
  lemma DispatchDenied(env: Env, db: Db, req: HttpRequest, route: Route, json: Json, e: Auth.AuthError)
    requires route.Protected? && req.client.Some?
    requires AuthorizeRequest(env, db, req).result == Err(Auth.Denied(e))
    ensures Dispatch(env, db, req, route, json) == Returned(Handle(AuthFailure(e), env.formatTime).value, db)
  {
    var rec := AdaptRequest(req, env.decodeUtf8).value;
    var o := Auth.Authorize(db, rec.authorization, rec.identifier, env.now, env.freshId);
    assert o == AuthorizeRequest(env, db, req);
    assert Dispatch(env, db, req, route, json) == Settle(Raised(AuthFailure(e)), db, env.formatTime);
  }

  lemma DispatchIdentifies(env: Env, db: Db, req: HttpRequest, route: Route, c: Contract, json: Json)
    requires ContractsValid(db) && RequestIdAccepted(req)
    requires Header(req, XRequestIdHeader).value in db.requests
    requires forall i :: 0 <= i < |db.identifications| ==>
      db.identifications[i].requestId != Header(req, XRequestIdHeader).value
    requires route.Protected? && req.client.Some? && route.handler(json).Handled?
    requires Auth.ParseAuthorization(Header(req, AuthorizationHeader)).Ok?
    requires GetContractByToken(db, Auth.ParseAuthorization(Header(req, AuthorizationHeader)).value) == Some(c)
    requires !IsExpired(c, env.now) && !IsRevoked(c, env.now) && !HasIdentification(db, env.freshId)
    ensures Dispatch(env, db, req, route, json)
         == Returned(route.handler(json).response,
                     Identified(db, Identification(env.freshId, Header(req, XRequestIdHeader).value, c.id)))
  {
    AuthorizeFresh(env, db, req, c);
  }

  /**
   * A protected route whose `Authorization` header is refused: the client gets
   * the 401 envelope with the failure's message, the exchange is logged with
   * that status, and no identification is written.
   */
  lemma RefusedHeaderLogged(env: Env, db: Db, req: HttpRequest, route: Route)
    requires Valid(db)
    requires GatesPassed(env, req) && req.path != IgnoredPath && Admissible(db, req)
    requires route.Protected? && Auth.ParseAuthorization(Header(req, AuthorizationHeader)).Err?
    ensures var r := Serve(env, db, req, route);
            var id := Header(req, XRequestIdHeader).value;
            var e := Auth.ParseAuthorization(Header(req, AuthorizationHeader)).error;
            && r.response.status == Auth.HttpStatus
            && MessageOf(r.response) == Some(Auth.Render(e, env.formatTime))
            && ResponseLogged(r.db, id, r.response)
            && r.db.identifications == db.identifications
  {
    var json := BodyJson(env, req);
    var db1 := SaveUnreferenced(env, db, req, json);
    var e := Auth.ParseAuthorization(Header(req, AuthorizationHeader)).error;
    assert AuthorizeRequest(env, db1, req) == Auth.Outcome(Err(Auth.Denied(e)), db1);
    var response := Handle(AuthFailure(e), env.formatTime).value;
    DispatchDenied(env, db1, req, route, json, e);
    AccessLogs(env, db, req, route, json, response, db1);
    ServeThroughAccess(env, db, req, route);
  }

  /**
   * A protected request whose bearer token finds no contract, an expired one or
   * a revoked one: the client gets 401 with that failure's message, the
   * exchange is logged, and no identification is written.
   */
  lemma RefusedTokenLogged(env: Env, db: Db, req: HttpRequest, route: Route)
    requires Valid(db)
    requires GatesPassed(env, req) && req.path != IgnoredPath && Admissible(db, req)
    requires route.Protected? && Auth.ParseAuthorization(Header(req, AuthorizationHeader)).Ok?
    requires Auth.Refusal(db, Auth.ParseAuthorization(Header(req, AuthorizationHeader)).value, env.now).Some?
    ensures var r := Serve(env, db, req, route);
            var id := Header(req, XRequestIdHeader).value;
            var e := Auth.Refusal(db, Auth.ParseAuthorization(Header(req, AuthorizationHeader)).value, env.now).value;
            && r.response.status == Auth.HttpStatus
            && MessageOf(r.response) == Some(Auth.Render(e, env.formatTime))
            && ResponseLogged(r.db, id, r.response)
            && r.db.identifications == db.identifications
  {
    var json := BodyJson(env, req);
    var db1 := SaveUnreferenced(env, db, req, json);
    var token := Auth.ParseAuthorization(Header(req, AuthorizationHeader)).value;
    Auth.RefusalOfContracts(db, db1, token, env.now);
    Auth.AuthorizeRefusal(db1, Header(req, AuthorizationHeader), Header(req, XRequestIdHeader), env.now, env.freshId);
    var e := Auth.Refusal(db, token, env.now).value;
    assert AuthorizeRequest(env, db1, req) == Auth.Outcome(Err(Auth.Denied(e)), db1);
    var response := Handle(AuthFailure(e), env.formatTime).value;
    DispatchDenied(env, db1, req, route, json, e);
    AccessLogs(env, db, req, route, json, response, db1);
    ServeThroughAccess(env, db, req, route);
  }

  // ---------------------------------------------------------------------------
  // The store's constraints survive every request.
  // ---------------------------------------------------------------------------

  lemma DispatchValid(env: Env, db: Db, req: HttpRequest, route: Route, json: Json)
    requires Valid(db)
    ensures Valid(Dispatch(env, db, req, route, json).db)
  {
    DispatchStore(env, db, req, route, json);
    if route.Protected? && req.client.Some? {
      Auth.AuthorizeValid(db, Header(req, AuthorizationHeader), Header(req, XRequestIdHeader), env.now, env.freshId);
    }
  }

  /** The store after the route layers is the one `authorize` left, or the one they started from. */
  lemma DispatchStore(env: Env, db: Db, req: HttpRequest, route: Route, json: Json)
    ensures var d := Dispatch(env, db, req, route, json).db;
            d == db || (route.Protected? && req.client.Some? && d == AuthorizeRequest(env, db, req).db)
  {
  }

  lemma AccessValid(env: Env, db: Db, req: HttpRequest, route: Route, json: Json)
    requires Valid(db)
    ensures Valid(Access(env, db, req, route, json).db)
  {
    if req.path == IgnoredPath {
      DispatchValid(env, db, req, route, json);
    } else if req.client.Some? {
      var rec := AdaptRequest(req, env.decodeUtf8).value;
      var saved := SaveIncoming(db, rec, json);
      SaveRequestValid(db, rec.identifier, Some(rec.remoteAddr), rec.httpMethod, rec.path,
                       if rec.body.Some? then Some(json) else None);
      if saved.result.Ok? {
        DispatchValid(env, saved.db, req, route, json);
        LogResponseValid(Dispatch(env, saved.db, req, route, json), rec);
        AccessAfterSave(env, db, req, route, json);
      } else {
        AccessSaveFails(env, db, req, route, json);
      }
    }
  }

  lemma LogResponseValid(inner: Flow, rec: RequestRecord)
    requires Valid(inner.db)
    ensures Valid(LogResponse(inner, rec).db)
  {
    if inner.Returned? {
      SaveResponseValid(inner.db, rec.identifier, inner.response.status, inner.response.content);
    }
  }

  /** Whatever the request, the store still satisfies every constraint of the schema afterwards. */
  lemma ServeValid(env: Env, db: Db, req: HttpRequest, route: Route)
    requires Valid(db)
    ensures Valid(Serve(env, db, req, route).db)
  {
    if GatesPassed(env, req) {
      var json := BodyJson(env, req);
      assert CheckContentType(env, db, req, route) == Access(env, db, req, route, json);
      AccessValid(env, db, req, route, json);
    } else {
      GatesRefuseInOrder(env, db, req, route);
    }
  }
}

=== FILE: phones.dfy ===
/**
 * The request payload of the phone-reliability endpoint (vertical/app/models.py):
 * the `Phone` record, its schema-driven `from_dict`/`to_dict`, and the
 * `7\d{10}` number validator.
 */
module Phones {
  import opened Common
  import opened Json
  import Text

  /** The pattern text `7\d{10}`, embedded verbatim in the rejection message. */
  const Pattern: string := "7\\d{10}"

  const PatternMessage: string := "Phone number does't match expected pattern: " + Pattern + "."
  const MissingMessage: string := "Missing data for required field."
  const NullMessage: string := "Field may not be null."
  const NotStringMessage: string := "Not a valid string."
  const UnknownMessage: string := "Unknown field."
  const InvalidInputMessage: string := "Invalid input type."

  /** The one field the schema declares. */
  const NumberKey: string := "number"
  /** Where schema-level errors are reported. */
  const SchemaKey: string := "_schema"

  /**
   * `\d` as the pattern is written: for a `str` pattern Python's `re` matches
   * every Unicode decimal digit (category Nd), not only `0`-`9`. Listed here are
   * the 64 Nd blocks of Unicode 15.0; a later Unicode version adds a few more.
   */
  predicate IsUnicodeDecimal(c: char) {
    var n := c as int;
    || (0x30 <= n <= 0x39) || (0x660 <= n <= 0x669) || (0x6F0 <= n <= 0x6F9)
    || (0x7C0 <= n <= 0x7C9) || (0x966 <= n <= 0x96F) || (0x9E6 <= n <= 0x9EF)
    || (0xA66 <= n <= 0xA6F) || (0xAE6 <= n <= 0xAEF) || (0xB66 <= n <= 0xB6F)
    || (0xBE6 <= n <= 0xBEF) || (0xC66 <= n <= 0xC6F) || (0xCE6 <= n <= 0xCEF)
    || (0xD66 <= n <= 0xD6F) || (0xDE6 <= n <= 0xDEF) || (0xE50 <= n <= 0xE59)
    || (0xED0 <= n <= 0xED9) || (0xF20 <= n <= 0xF29) || (0x1040 <= n <= 0x1049)
    || (0x1090 <= n <= 0x1099) || (0x17E0 <= n <= 0x17E9) || (0x1810 <= n <= 0x1819)
    || (0x1946 <= n <= 0x194F) || (0x19D0 <= n <= 0x19D9) || (0x1A80 <= n <= 0x1A89)
    || (0x1A90 <= n <= 0x1A99) || (0x1B50 <= n <= 0x1B59) || (0x1BB0 <= n <= 0x1BB9)
    || (0x1C40 <= n <= 0x1C49) || (0x1C50 <= n <= 0x1C59) || (0xA620 <= n <= 0xA629)
    || (0xA8D0 <= n <= 0xA8D9) || (0xA900 <= n <= 0xA909) || (0xA9D0 <= n <= 0xA9D9)
    || (0xA9F0 <= n <= 0xA9F9) || (0xAA50 <= n <= 0xAA59) || (0xABF0 <= n <= 0xABF9)
    || (0xFF10 <= n <= 0xFF19) || (0x104A0 <= n <= 0x104A9) || (0x10D30 <= n <= 0x10D39)
    || (0x11066 <= n <= 0x1106F) || (0x110F0 <= n <= 0x110F9) || (0x11136 <= n <= 0x1113F)
    || (0x111D0 <= n <= 0x111D9) || (0x112F0 <= n <= 0x112F9) || (0x11450 <= n <= 0x11459)
    || (0x114D0 <= n <= 0x114D9) || (0x11650 <= n <= 0x11659) || (0x116C0 <= n <= 0x116C9)
    || (0x11730 <= n <= 0x11739) || (0x118E0 <= n <= 0x118E9) || (0x11950 <= n <= 0x11959)
    || (0x11C50 <= n <= 0x11C59) || (0x11D50 <= n <= 0x11D59) || (0x11DA0 <= n <= 0x11DA9)
    || (0x11F50 <= n <= 0x11F59) || (0x16A60 <= n <= 0x16A69) || (0x16AC0 <= n <= 0x16AC9)
    || (0x16B50 <= n <= 0x16B59) || (0x1D7CE <= n <= 0x1D7FF) || (0x1E140 <= n <= 0x1E149)
    || (0x1E2F0 <= n <= 0x1E2F9) || (0x1E4F0 <= n <= 0x1E4F9) || (0x1E950 <= n <= 0x1E959)
    || (0x1FBF0 <= n <= 0x1FBF9)
  }

  /** `PHONE_NUMBER_FORMAT.fullmatch(number)` as written: `\d` is any decimal digit. */
  predicate MatchesAsWritten(number: string) {
    |number| == 11 && number[0] == '7'
    && forall i :: 1 <= i < 11 ==> IsUnicodeDecimal(number[i])
  }

  /** The evidently intended pattern: `7` followed by ten ASCII digits, nothing else. */
  predicate Matches(number: string) {
    |number| == 11 && number[0] == '7'
    && forall i :: 1 <= i < 11 ==> Text.IsAsciiDigit(number[i])
  }

  /** `validate_phone_number`: `None` when the number passes, else the `ValidationError` message. */
  function ValidatePhoneNumber(number: string): (r: Option<string>)
    ensures r.None? <==> Matches(number)
    ensures r.Some? ==> r.value == PatternMessage && Text.Contains(r.value, Pattern)
  {
    if Matches(number) then None
    else
      var k := |"Phone number does't match expected pattern: "|;
      assert Text.StartsWith(PatternMessage[k..], Pattern);
      Some(PatternMessage)
  }

  datatype Phone = Phone(number: string)

  /** The errors of one field (the field's list of messages in `ValidationError.messages`). */
  function NumberErrors(data: map<string, Json>): (r: seq<string>)
    ensures |r| <= 1
    ensures r == [] <==> NumberKey in data && data[NumberKey].JString? && Matches(data[NumberKey].s)
  {
    if NumberKey !in data then [MissingMessage]
    else match data[NumberKey]
      case JNull => [NullMessage]
      case JString(s) =>
        (match ValidatePhoneNumber(s) case None => [] case Some(m) => [m])
      case _ => [NotStringMessage]
  }

  /** Errors as the JSON object `{field: [message, ...]}`. */
  function ErrorsJson(errors: map<string, seq<string>>): (r: Json)
    ensures r.JObject? && r.fields.Keys == errors.Keys
  {
    JObject(map k | k in errors :: JArray(seq(|errors[k]|, i requires 0 <= i < |errors[k]| => JString(errors[k][i]))))
  }

  /** Every message the schema reports for `data`: the field's own and one per unknown key. */
  function LoadErrors(data: Json): (r: map<string, seq<string>>)
    ensures !data.JObject? ==> r == map[SchemaKey := [InvalidInputMessage]]
    ensures data.JObject? ==> forall k :: k in data.fields && k != NumberKey ==> k in r && r[k] == [UnknownMessage]
    ensures data.JObject? ==> (r == map[] <==> data.fields.Keys <= {NumberKey} && NumberErrors(data.fields) == [])
  {
    if !data.JObject? then map[SchemaKey := [InvalidInputMessage]]
    else
      var unknown := map k | k in data.fields && k != NumberKey :: [UnknownMessage];
      var own := NumberErrors(data.fields);
      if own == [] then unknown
      else
        var r := unknown[NumberKey := own];
        assert NumberKey in r;
        r
  }

  /** `Phone.from_dict`: the loaded record, or the `ValidationError` with its messages. */
  function FromDict(data: Json): (r: Result<Phone, Json>)
    ensures r.Ok? <==> data.JObject? && data.fields.Keys == {NumberKey}
                       && data.fields[NumberKey].JString? && Matches(data.fields[NumberKey].s)
    ensures r.Ok? ==> data == JObject(map[NumberKey := JString(r.value.number)])
    ensures r.Err? ==> r.error.JObject? && r.error.fields != map[]
  {
    var errors := LoadErrors(data);
    match data
    case JObject(fields) =>
      if errors == map[] then Ok(Phone(fields[NumberKey].s))
      else Err(ErrorsJson(errors))
    case _ =>
      assert SchemaKey in errors;
      Err(ErrorsJson(errors))
  }

  /** `Phone.to_dict`: the schema's dump, `{"number": number}`. */
  function ToDict(p: Phone): Json {
    JObject(map[NumberKey := JString(p.number)])
  }

  /** Dumping a loaded phone reproduces the input document. */
  lemma LoadThenDump(data: Json)
    requires FromDict(data).Ok?
    ensures ToDict(FromDict(data).value) == data
  {
  }

  /** Loading a dumped valid phone gives the same phone back. */
  lemma DumpThenLoad(p: Phone)
    requires Matches(p.number)
    ensures FromDict(ToDict(p)) == Ok(p)
  {
    assert ToDict(p).fields.Keys == {NumberKey};
  }

  /** A missing key and an explicit `null` are reported differently. */
  lemma MissingAndNullDiffer()
    ensures FromDict(JObject(map[])) == Err(ErrorsJson(map[NumberKey := [MissingMessage]]))
    ensures FromDict(JObject(map[NumberKey := JNull])) == Err(ErrorsJson(map[NumberKey := [NullMessage]]))
    ensures MissingMessage != NullMessage
  {
    var m0: map<string, Json> := map[];
    assert (map k | k in m0 && k != NumberKey :: [UnknownMessage]) == map[];
    var m1 := map[NumberKey := JNull];
    assert (map k | k in m1 && k != NumberKey :: [UnknownMessage]) == map[];
  }

  /** The numbers of the model tests are accepted. */
  lemma AcceptedNumbers()
    ensures Matches("74956655173") && Matches("78006655174")
    ensures Matches("79998887766") && Matches("79160000000")
  {
  }

  /** A leading 8, too many or too few digits, letters and the empty string are rejected. */
  lemma RejectedNumbers()
    ensures !Matches("80000000000") && !Matches("84956655173")
    ensures !Matches("799988866554433") && !Matches("799988866")
    ensures !Matches("number") && !Matches("")
    ensures !Matches("7000000000") && !Matches("700000000000") && !Matches("phone")
  {
  }

  /** Ten ARABIC-INDIC DIGIT ZERO after the leading `7`. */
  const ArabicIndicNumber: string := "7٠٠٠٠٠٠٠٠٠٠"
  /** `7` followed by ten MATHEMATICAL BOLD DIGIT ZERO (U+1D7CE), outside the Basic Multilingual Plane. */
  const MathBoldNumber: string := ['7'] + seq(10, _ => '\U{1D7CE}')

  /** The pattern as written lets non-ASCII digits through; the intended one does not. */
  lemma UnicodeDigitsSlipThrough()
    ensures MatchesAsWritten(ArabicIndicNumber)
    ensures !Matches(ArabicIndicNumber)
    ensures MatchesAsWritten(MathBoldNumber)
    ensures !Matches(MathBoldNumber)
  {
    assert !Text.IsAsciiDigit(ArabicIndicNumber[1]);
    assert !Text.IsAsciiDigit(MathBoldNumber[1]);
  }

  /** The intended pattern is strictly narrower than the one written. */
  lemma MatchesNarrowsAsWritten(number: string)
    ensures Matches(number) ==> MatchesAsWritten(number)
  {
  }
}

=== FILE: responses.dfy ===
/**
 * The JSON response envelopes of vertical/app/responses.py. Every response
 * starts from the same fixed header set and carries a JSON object whose
 * `message` member says what happened.
 */
module Responses {
  import opened Common
  import opened Json

  /** A response as the service builds it: status code, JSON content, headers. */
  datatype Response = Response(status: int, content: Json, headers: map<string, string>)

  const ServerHeader: string := "server"
  const ContentTypeHeader: string := "content-type"
  const CacheControlHeader: string := "cache-control"
  const ExpiresHeader: string := "expires"
  const PragmaHeader: string := "pragma"

  /** `HEADERS`: the header set every response starts from. */
  const DefaultHeaders: map<string, string> := map[
    ServerHeader := "UCB Vertical v0.0.1",
    ContentTypeHeader := "application/json; charset=utf-8",
    CacheControlHeader := "no-cache, no-store, must-revalidate",
    ExpiresHeader := "0",
    PragmaHeader := "no-cache"
  ]

  const OkStatus: int := 200
  const BadRequestStatus: int := 400
  const UnsupportedMediaTypeStatus: int := 415
  const UnprocessableEntityStatus: int := 422
  const InternalServerErrorStatus: int := 500

  const DataKey: string := "data"
  const MessageKey: string := "message"
  const ErrorsKey: string := "errors"

  const OkMessage: string := "OK"
  const UnsupportedMessage: string := "Unsupported media type"
  const ValidationMessage: string := "Input payload validation failed"
  const ServerErrorMessage: string := "Internal server error"

  /** `create_response`: the content and status with a fresh copy of `HEADERS`. */
  function CreateResponse(content: Json, status: int): Response {
    Response(status, content, DefaultHeaders)
  }

  /** The `message` member of a response's content, when it is a string. */
  function MessageOf(r: Response): Option<string> {
    match Member(r.content, MessageKey)
    case Some(JString(m)) => Some(m)
    case _ => None
  }

  /** A response with one header set (or replaced) and everything else kept. */
  function WithHeader(r: Response, name: string, value: string): (r': Response)
    ensures r'.status == r.status && r'.content == r.content
    ensures name in r'.headers && r'.headers[name] == value
    ensures forall h :: h != name ==> (h in r'.headers <==> h in r.headers)
    ensures forall h :: h != name && h in r.headers ==> r'.headers[h] == r.headers[h]
  {
    r.(headers := r.headers[name := value])
  }

  /**
   * `ok`: status 200 with the members `data` and `message`; a missing or falsy
   * `data` becomes `{}` and a missing or empty `message` becomes `OK`.
   */
  function Ok(data: Option<Json>, message: Option<string>): (r: Response)
    ensures r.status == OkStatus && r.headers == DefaultHeaders
    ensures Keys(r.content) == {DataKey, MessageKey}
    ensures data.Some? && Truthy(data.value) ==> Member(r.content, DataKey) == data
    ensures data.None? || !Truthy(data.value) ==> Member(r.content, DataKey) == Some(Empty)
    ensures message.Some? && message.value != [] ==> MessageOf(r) == message
    ensures message.None? || message.value == [] ==> MessageOf(r) == Some(OkMessage)
  {
    var d := if data.Some? && Truthy(data.value) then data.value else Empty;
    var m := if message.Some? && message.value != [] then message.value else OkMessage;
    CreateResponse(JObject(map[DataKey := d, MessageKey := JString(m)]), OkStatus)
  }

  /** The same fallbacks for every falsy argument: `ok()` is the canonical default. */
  lemma OkFallsBack(data: Option<Json>, message: Option<string>)
    requires data.None? || !Truthy(data.value)
    requires message.None? || message.value == []
    ensures Ok(data, message) == Ok(None, None)
    ensures Ok(None, None) == Ok(Some(Empty), Some(OkMessage))
  {
  }

  /** `bad_request`: status 400 with the one member `message`. */
  function BadRequest(message: string): (r: Response)
    ensures r.status == BadRequestStatus && r.headers == DefaultHeaders
    ensures Keys(r.content) == {MessageKey}
    ensures MessageOf(r) == Some(message)
  {
    CreateResponse(JObject(map[MessageKey := JString(message)]), BadRequestStatus)
  }

  /**
   * A bad-request envelope is recognised by its shape and gives its message
   * back: `bad_request` is exactly the 400 responses whose content is a lone
   * string `message`.
   */
  lemma BadRequestInverse(r: Response)
    requires r.status == BadRequestStatus && r.headers == DefaultHeaders
    requires Keys(r.content) == {MessageKey} && MessageOf(r).Some?
    ensures r == BadRequest(MessageOf(r).value)
  {
    var f := r.content.fields;
    assert MessageKey in f;
    assert f == map[MessageKey := JString(MessageOf(r).value)];
  }

  /** `unsupported_media_type`: status 415 with a fixed message. */
  function UnsupportedMediaType(): (r: Response)
    ensures r.status == UnsupportedMediaTypeStatus && r.headers == DefaultHeaders
    ensures Keys(r.content) == {MessageKey}
    ensures MessageOf(r) == Some(UnsupportedMessage)
  {
    CreateResponse(JObject(map[MessageKey := JString(UnsupportedMessage)]), UnsupportedMediaTypeStatus)
  }

  /** `validation_error`: status 422 with the errors as given and a fixed message. */
  function ValidationError(errors: Json): (r: Response)
    ensures r.status == UnprocessableEntityStatus && r.headers == DefaultHeaders
    ensures Keys(r.content) == {ErrorsKey, MessageKey}
    ensures Member(r.content, ErrorsKey) == Some(errors)
    ensures MessageOf(r) == Some(ValidationMessage)
  {
    CreateResponse(JObject(map[ErrorsKey := errors, MessageKey := JString(ValidationMessage)]), UnprocessableEntityStatus)
  }

  /** `server_error`: status 500 with a fixed message. */
  function ServerError(): (r: Response)
    ensures r.status == InternalServerErrorStatus && r.headers == DefaultHeaders
    ensures Keys(r.content) == {MessageKey}
    ensures MessageOf(r) == Some(ServerErrorMessage)
  {
    CreateResponse(JObject(map[MessageKey := JString(ServerErrorMessage)]), InternalServerErrorStatus)
  }

  /**
   * The fixed-message envelopes are the bad-request envelope with their
   * message at their own status, so the two builders agree on the shape.
   */
  lemma FixedEnvelopesAreMessages()
    ensures UnsupportedMediaType() == BadRequest(UnsupportedMessage).(status := UnsupportedMediaTypeStatus)
    ensures ServerError() == BadRequest(ServerErrorMessage).(status := InternalServerErrorStatus)
  {
  }
}

=== FILE: store.dfy ===
/**
 * The audit and contract tables of vertical/app/auth.py, with the constraints
 * the migrations declare, and the `AuthService` gateway operations over them
 * (`save_request`, `save_response`, `get_contract_by_token`, `get_client`,
 * `identify`). The database is a value; every operation returns its result
 * together with the database it leaves behind, so that a rejected statement
 * visibly changes nothing.
 */
module Store {
  import opened Common
  import opened Json

  /** A row of `clients`. */
  datatype Client = Client(id: string, name: string)

  /** A row of `contracts`; the timestamps are instants on the server clock. */
  datatype Contract = Contract(
    id: string,
    clientId: string,
    token: string,
    expiredAt: Option<int>,
    revokedAt: Option<int>)

  /** A row of `requests`. */
  datatype RequestRow = RequestRow(
    id: string,
    remote: Option<string>,
    httpMethod: string,
    path: string,
    body: Option<Json>)

  /** A row of `responses`, keyed by the id of the request it answers. */
  datatype ResponseRow = ResponseRow(requestId: string, code: int, body: Json)

  /** A row of `identifications`: which contract a request was made under. */
  datatype Identification = Identification(id: string, requestId: string, contractId: string)

  /**
   * The tables. Contracts are kept in storage order, because tokens are not unique
   * and a lookup by token returns the first row it meets.
   */
  datatype Db = Db(
    clients: map<string, Client>,
    contracts: seq<Contract>,
    requests: map<string, RequestRow>,
    responses: map<string, ResponseRow>,
    identifications: seq<Identification>)

  /** The constraint a rejected statement violated. */
  datatype DbError =
    | NotNullViolation(column: string)
    | StringTooLong(column: string)
    /** Postgres text cannot hold the character U+0000. */
    | NulCharacter(column: string)
    | OutOfRange(column: string)
    | UniqueViolation(table: string)
    | ForeignKeyViolation(table: string)

  /** The outcome of one statement and the database after it. */
  datatype Step<T> = Step(result: Result<T, DbError>, db: Db)

  // Column widths declared by the migrations.
  const ClientNameWidth: nat := 64
  const TokenWidth: nat := 64
  const RemoteWidth: nat := 64
  const MethodWidth: nat := 7
  const PathWidth: nat := 50

  /** The string holds no U+0000, which no Postgres text value can contain. */
  predicate NulFree(s: string) {
    forall i :: 0 <= i < |s| ==> s[i] != '\0'
  }

  /**
   * Assigning `s` to a `VARCHAR(width)` column succeeds when `s` holds no
   * U+0000 and every character past `width` is a space: SQL cuts such trailing
   * spaces instead of raising `string_data_right_truncation`.
   */
  predicate FitsVarchar(s: string, width: nat) {
    NulFree(s) && forall i :: width <= i < |s| ==> s[i] == ' '
  }

  /** The value a `VARCHAR(width)` column keeps of `s`: at most `width` leading characters. */
  function StoreVarchar(s: string, width: nat): (r: string)
    ensures |r| <= width && |r| <= |s| && r == s[..|r|]
    ensures r == s <==> |s| <= width
  {
    if |s| <= width then s else s[..width]
  }

  /** `n` spaces. */
  function Spaces(n: nat): string {
    seq(n, _ => ' ')
  }

  /** What the column keeps loses only trailing spaces: padding it back gives the value assigned. */
  lemma StoreVarcharPads(s: string, width: nat)
    requires FitsVarchar(s, width)
    ensures s == StoreVarchar(s, width) + Spaces(|s| - |StoreVarchar(s, width)|)
  {
    var r := StoreVarchar(s, width);
    var t := r + Spaces(|s| - |r|);
    assert |t| == |s|;
    forall i | 0 <= i < |s| ensures t[i] == s[i] {
      if i >= |r| {
        assert t[i] == ' ';
      }
    }
  }

  /** The error assigning `s` to the `VARCHAR(width)` column `column` raises, if any. */
  function VarcharError(s: string, width: nat, column: string): (e: Option<DbError>)
    ensures e.None? <==> FitsVarchar(s, width)
  {
    if !NulFree(s) then Some(NulCharacter(column))
    else if !FitsVarchar(s, width) then Some(StringTooLong(column))
    else None
  }

  /** The range of `SMALLINT`. */
  const SmallIntMin: int := -32768
  const SmallIntMax: int := 32767

  predicate HasContract(db: Db, id: string) {
    exists i :: 0 <= i < |db.contracts| && db.contracts[i].id == id
  }

  predicate HasIdentification(db: Db, id: string) {
    exists i :: 0 <= i < |db.identifications| && db.identifications[i].id == id
  }

  predicate HasPair(db: Db, requestId: string, contractId: string) {
    exists i :: 0 <= i < |db.identifications|
      && db.identifications[i].requestId == requestId && db.identifications[i].contractId == contractId
  }

  /** The constraints of the clients and contracts tables. */
  predicate ContractsValid(db: Db) {
    && (forall k :: k in db.clients ==> db.clients[k].id == k && |db.clients[k].name| <= ClientNameWidth)
    && (forall k1, k2 :: k1 in db.clients && k2 in db.clients && db.clients[k1].name == db.clients[k2].name ==> k1 == k2)
    && (forall i, j :: 0 <= i < j < |db.contracts| ==> db.contracts[i].id != db.contracts[j].id)
    && (forall i :: 0 <= i < |db.contracts| ==>
          db.contracts[i].clientId in db.clients && |db.contracts[i].token| <= TokenWidth)
  }

  /** The constraints of the audit tables. */
  predicate AuditValid(db: Db) {
    && (forall k :: k in db.requests ==> db.requests[k].id == k)
    && (forall k :: k in db.requests ==>
          && (db.requests[k].remote.Some? ==> |db.requests[k].remote.value| <= RemoteWidth)
          && |db.requests[k].httpMethod| <= MethodWidth
          && |db.requests[k].path| <= PathWidth)
    && (forall k :: k in db.responses ==>
          db.responses[k].requestId == k && k in db.requests
          && SmallIntMin <= db.responses[k].code <= SmallIntMax)
    && (forall i, j :: 0 <= i < j < |db.identifications| ==>
          db.identifications[i].id != db.identifications[j].id
          && (db.identifications[i].requestId, db.identifications[i].contractId)
             != (db.identifications[j].requestId, db.identifications[j].contractId))
    && (forall i :: 0 <= i < |db.identifications| ==>
          db.identifications[i].requestId in db.requests && HasContract(db, db.identifications[i].contractId))
  }

  /** Every constraint the migrations declare holds. */
  predicate Valid(db: Db) {
    ContractsValid(db) && AuditValid(db)
  }

  /** The schema as created, before any row is inserted. */
  const EmptyDb: Db := Db(map[], [], map[], map[], [])

  lemma EmptyDbValid()
    ensures Valid(EmptyDb)
  {
  }

  // ---------------------------------------------------------------------------
  // Contract lifecycle.
  // ---------------------------------------------------------------------------

  /** `Contract.is_expired`: an expiry instant is set and has been reached. */
  predicate IsExpired(c: Contract, now: int) {
    c.expiredAt.Some? && c.expiredAt.value <= now
  }

  /** `Contract.is_revoked`: a revocation instant is set and has been reached. */
  predicate IsRevoked(c: Contract, now: int) {
    c.revokedAt.Some? && c.revokedAt.value <= now
  }

  /**
   * A contract is expired from its expiry instant on (the instant itself included)
   * and never before; the same holds for revocation.
   */
  lemma LifecycleBoundaries(c: Contract, now: int)
    ensures c.expiredAt == Some(now) ==> IsExpired(c, now) && !IsExpired(c, now - 1)
    ensures c.revokedAt == Some(now) ==> IsRevoked(c, now) && !IsRevoked(c, now - 1)
    ensures c.expiredAt.None? ==> !IsExpired(c, now)
    ensures c.revokedAt.None? ==> !IsRevoked(c, now)
  {
  }

  /** Expiry and revocation are permanent as the clock advances. */
  lemma LifecycleMonotone(c: Contract, t1: int, t2: int)
    requires t1 <= t2
    ensures IsExpired(c, t1) ==> IsExpired(c, t2)
    ensures IsRevoked(c, t1) ==> IsRevoked(c, t2)
  {
  }

  // ---------------------------------------------------------------------------
  // Gateway operations.
  // ---------------------------------------------------------------------------

  /**
   * `save_request`: one `INSERT INTO requests`. A text value its column cannot
   * take is rejected first, then a missing key, then a key already present;
   * trailing spaces past a column's width are cut off.
   */
  function SaveRequest(db: Db, id: Option<string>, remote: Option<string>, httpMethod: string, path: string,
                       body: Option<Json>): (r: Step<RequestRow>)
    ensures r.result.Ok? <==>
      && id.Some? && id.value !in db.requests
      && (remote.Some? ==> FitsVarchar(remote.value, RemoteWidth))
      && FitsVarchar(httpMethod, MethodWidth) && FitsVarchar(path, PathWidth)
    ensures r.result.Ok? ==>
      && r.result.value == RequestRow(id.value,
                                      if remote.Some? then Some(StoreVarchar(remote.value, RemoteWidth)) else None,
                                      StoreVarchar(httpMethod, MethodWidth), StoreVarchar(path, PathWidth), body)
      && r.db == db.(requests := db.requests[id.value := r.result.value])
    ensures r.result.Err? ==> r.db == db
  {
    var remoteError := if remote.Some? then VarcharError(remote.value, RemoteWidth, "remote") else None;
    if remoteError.Some? then Step(Err(remoteError.value), db)
    else if VarcharError(httpMethod, MethodWidth, "method").Some? then
      Step(Err(VarcharError(httpMethod, MethodWidth, "method").value), db)
    else if VarcharError(path, PathWidth, "path").Some? then
      Step(Err(VarcharError(path, PathWidth, "path").value), db)
    else if id.None? then Step(Err(NotNullViolation("request_id")), db)
    else if id.value in db.requests then Step(Err(UniqueViolation("requests")), db)
    else
      var stored := if remote.Some? then Some(StoreVarchar(remote.value, RemoteWidth)) else None;
      var row := RequestRow(id.value, stored, StoreVarchar(httpMethod, MethodWidth), StoreVarchar(path, PathWidth), body);
      Step(Ok(row), db.(requests := db.requests[id.value := row]))
  }

  /**
   * Two paths at the edge of the `path` column: fifty characters followed by
   * two spaces are kept as the fifty, and a path holding U+0000 is refused.
   */
  lemma SaveRequestPathEdges(db: Db, id: string)
    requires id !in db.requests
    ensures var path := "/" + seq(49, _ => 'a');
      SaveRequest(db, Some(id), None, "GET", path + "  ", None).result == Ok(RequestRow(id, None, "GET", path, None))
    ensures SaveRequest(db, Some(id), None, "GET", "/\0", None).result == Err(NulCharacter("path"))
  {
    var path := "/" + seq(49, _ => 'a');
    var padded := path + "  ";
    assert padded[..50] == path;
    assert FitsVarchar(padded, PathWidth);
    assert !NulFree("/\0") by { assert "/\0"[1] == '\0'; }
  }

  /**
   * `save_response`: one `INSERT INTO responses`. The code must fit a `SMALLINT`,
   * the key must be present and unused, and the request it names must exist.
   */
  function SaveResponse(db: Db, requestId: Option<string>, code: int, body: Json): (r: Step<ResponseRow>)
    ensures r.result.Ok? <==>
      && SmallIntMin <= code <= SmallIntMax
      && requestId.Some? && requestId.value !in db.responses && requestId.value in db.requests
    ensures r.result.Ok? ==>
      && r.result.value == ResponseRow(requestId.value, code, body)
      && r.db == db.(responses := db.responses[requestId.value := r.result.value])
    ensures r.result.Err? ==> r.db == db
  {
    if code < SmallIntMin || code > SmallIntMax then Step(Err(OutOfRange("code")), db)
    else if requestId.None? then Step(Err(NotNullViolation("request_id")), db)
    else if requestId.value in db.responses then Step(Err(UniqueViolation("responses")), db)
    else if requestId.value !in db.requests then Step(Err(ForeignKeyViolation("responses")), db)
    else
      var row := ResponseRow(requestId.value, code, body);
      Step(Ok(row), db.(responses := db.responses[requestId.value := row]))
  }

  /** Index of the first contract in storage order whose token is `token`. */
  function FirstWithToken(cs: seq<Contract>, token: string): (r: Option<nat>)
    ensures r.Some? ==> r.value < |cs| && cs[r.value].token == token
    ensures r.Some? ==> forall i :: 0 <= i < r.value ==> cs[i].token != token
    ensures r.None? ==> forall i :: 0 <= i < |cs| ==> cs[i].token != token
  {
    if cs == [] then None
    else if cs[0].token == token then Some(0)
    else match FirstWithToken(cs[1..], token)
      case None => None
      case Some(i) => Some(i + 1)
  }

  /** `get_contract_by_token`: `WHERE token = $1 LIMIT 1`. */
  function GetContractByToken(db: Db, token: string): (r: Option<Contract>)
    ensures r.None? <==> forall i :: 0 <= i < |db.contracts| ==> db.contracts[i].token != token
    ensures r.Some? ==> exists i :: 0 <= i < |db.contracts| && db.contracts[i] == r.value
                          && FirstWithToken(db.contracts, token) == Some(i)
  {
    match FirstWithToken(db.contracts, token)
    case None => None
    case Some(i) => Some(db.contracts[i])
  }

  /** `get_client`: the client joined to the contract's id; `None` when the join is empty. */
  function GetClient(db: Db, contract: Contract): (r: Option<Client>)
    ensures r.Some? ==> exists i :: 0 <= i < |db.contracts| && db.contracts[i].id == contract.id
                          && db.contracts[i].clientId in db.clients && r.value == db.clients[db.contracts[i].clientId]
    ensures ContractsValid(db) && HasContract(db, contract.id) ==> r.Some?
  {
    match FirstWithId(db.contracts, contract.id)
    case None => None
    case Some(i) =>
      var cid := db.contracts[i].clientId;
      if cid in db.clients then Some(db.clients[cid]) else None
  }

  /** Index of the contract with primary key `id`. */
  function FirstWithId(cs: seq<Contract>, id: string): (r: Option<nat>)
    ensures r.Some? ==> r.value < |cs| && cs[r.value].id == id
    ensures r.None? ==> forall i :: 0 <= i < |cs| ==> cs[i].id != id
  {
    if cs == [] then None
    else if cs[0].id == id then Some(0)
    else match FirstWithId(cs[1..], id)
      case None => None
      case Some(i) => Some(i + 1)
  }

  /**
   * `identify`: one `INSERT INTO identifications` with a server-generated key
   * `freshId`. The key and the (request, contract) pair must be unused, and both
   * referenced rows must exist.
   */
  function Identify(db: Db, requestId: string, contractId: string, freshId: string): (r: Step<Identification>)
    ensures r.result.Ok? <==>
      && !HasIdentification(db, freshId) && !HasPair(db, requestId, contractId)
      && requestId in db.requests && HasContract(db, contractId)
    ensures r.result.Ok? ==>
      && r.result.value == Identification(freshId, requestId, contractId)
      && r.db == db.(identifications := db.identifications + [r.result.value])
    ensures r.result.Err? ==> r.db == db
  {
    if HasIdentification(db, freshId) || HasPair(db, requestId, contractId) then
      Step(Err(UniqueViolation("identifications")), db)
    else if requestId !in db.requests || FirstWithId(db.contracts, contractId).None? then
      Step(Err(ForeignKeyViolation("identifications")), db)
    else
      var row := Identification(freshId, requestId, contractId);
      Step(Ok(row), db.(identifications := db.identifications + [row]))
  }

  // ---------------------------------------------------------------------------
  // The constraints are preserved by every statement.
  // ---------------------------------------------------------------------------

  /** The clients and contracts constraints only read those two tables. */
  lemma ContractsUnchanged(db: Db, db': Db)
    requires ContractsValid(db) && db'.clients == db.clients && db'.contracts == db.contracts
    ensures ContractsValid(db')
  {
  }

  lemma SaveRequestValid(db: Db, id: Option<string>, remote: Option<string>, httpMethod: string, path: string,
                         body: Option<Json>)
    requires Valid(db)
    ensures Valid(SaveRequest(db, id, remote, httpMethod, path, body).db)
  {
    var r := SaveRequest(db, id, remote, httpMethod, path, body);
    if r.result.Ok? {
      var db' := r.db;
      ContractsUnchanged(db, db');
      assert db'.identifications == db.identifications && db'.contracts == db.contracts;
      forall i | 0 <= i < |db'.identifications|
        ensures HasContract(db', db'.identifications[i].contractId)
      {
        assert HasContract(db, db.identifications[i].contractId);
      }
    }
  }

  lemma SaveResponseValid(db: Db, requestId: Option<string>, code: int, body: Json)
    requires Valid(db)
    ensures Valid(SaveResponse(db, requestId, code, body).db)
  {
    var r := SaveResponse(db, requestId, code, body);
    if r.result.Ok? {
      var db' := r.db;
      ContractsUnchanged(db, db');
      assert db'.identifications == db.identifications && db'.contracts == db.contracts;
      forall i | 0 <= i < |db'.identifications|
        ensures HasContract(db', db'.identifications[i].contractId)
      {
        assert HasContract(db, db.identifications[i].contractId);
      }
    }
  }

  lemma IdentifyValid(db: Db, requestId: string, contractId: string, freshId: string)
    requires Valid(db)
    ensures Valid(Identify(db, requestId, contractId, freshId).db)
  {
    var r := Identify(db, requestId, contractId, freshId);
    if r.result.Ok? {
      var db' := r.db;
      var n := |db.identifications|;
      ContractsUnchanged(db, db');
      assert db'.contracts == db.contracts;
      forall i | 0 <= i < |db'.identifications|
        ensures HasContract(db', db'.identifications[i].contractId)
      {
        if i < n {
          assert HasContract(db, db.identifications[i].contractId);
        }
      }
      forall i, j | 0 <= i < j < |db'.identifications|
        ensures db'.identifications[i].id != db'.identifications[j].id
        ensures (db'.identifications[i].requestId, db'.identifications[i].contractId)
             != (db'.identifications[j].requestId, db'.identifications[j].contractId)
      {
        if j == n {
          assert db'.identifications[i] == db.identifications[i];
        }
      }
    }
  }

  /** In a consistent database every contract found by token has its client. */
  lemma ContractHasClient(db: Db, token: string)
    requires ContractsValid(db)
    requires GetContractByToken(db, token).Some?
    ensures GetClient(db, GetContractByToken(db, token).value).Some?
  {
  }

  /** A request is answered at most once: a second response for it is rejected. */
  lemma SecondResponseRejected(db: Db, requestId: string, code1: int, code2: int, body1: Json, body2: Json)
    requires SaveResponse(db, Some(requestId), code1, body1).result.Ok?
    ensures SaveResponse(SaveResponse(db, Some(requestId), code1, body1).db, Some(requestId), code2, body2).result.Err?
  {
  }

  /** The same request cannot be identified twice under one contract. */
  lemma SecondIdentificationRejected(db: Db, requestId: string, contractId: string, id1: string, id2: string)
    requires Identify(db, requestId, contractId, id1).result.Ok?
    ensures Identify(Identify(db, requestId, contractId, id1).db, requestId, contractId, id2).result.Err?
  {
    var db1 := Identify(db, requestId, contractId, id1).db;
    assert db1.identifications[|db.identifications|] == Identification(id1, requestId, contractId);
    assert HasPair(db1, requestId, contractId);
  }
}

=== FILE: text.dfy ===
/**
 * The handful of Python `str` operations the service relies on: whitespace
 * splitting (`str.split()` with no separator), prefix tests, slicing with a
 * bound, and decimal rendering of a port number.
 */
module Text {
  import opened Common

  /** Python's `str.isspace` on one character: the ASCII controls TAB..CR and
      FS..US, SPACE, NEL, NO-BREAK SPACE and the Unicode space separators. */
  predicate IsSpace(c: char) {
    var n := c as int;
    || (9 <= n <= 13) || (28 <= n <= 32) || n == 0x85 || n == 0xA0 || n == 0x1680
    || (0x2000 <= n <= 0x200A) || n == 0x2028 || n == 0x2029 || n == 0x202F
    || n == 0x205F || n == 0x3000
  }

  predicate NoSpace(s: string) {
    forall i :: 0 <= i < |s| ==> !IsSpace(s[i])
  }

  predicate AllSpace(s: string) {
    forall i :: 0 <= i < |s| ==> IsSpace(s[i])
  }

  /** A word as `str.split()` produces it: non-empty and free of whitespace. */
  predicate IsWord(w: string) {
    w != [] && NoSpace(w)
  }

  /** The suffix left once leading whitespace is dropped. */
  function SkipSpaces(s: string): (r: string)
    ensures |r| <= |s| && r == s[|s| - |r|..]
    ensures AllSpace(s[..|s| - |r|])
    ensures r == [] || !IsSpace(r[0])
  {
    if s == [] || !IsSpace(s[0]) then s else SkipSpaces(s[1..])
  }

  /** The longest whitespace-free prefix. */
  function WordPrefix(s: string): (r: string)
    ensures |r| <= |s| && r == s[..|r|]
    ensures NoSpace(r)
    ensures |r| < |s| ==> IsSpace(s[|r|])
  {
    if s == [] || IsSpace(s[0]) then [] else [s[0]] + WordPrefix(s[1..])
  }

  /** Python's `s.split()`: the maximal runs of non-whitespace characters. */
  function Words(s: string): (r: seq<string>)
    ensures forall i :: 0 <= i < |r| ==> IsWord(r[i])
    decreases |s|
  {
    var t := SkipSpaces(s);
    if t == [] then []
    else
      var w := WordPrefix(t);
      assert |w| < |t| ==> IsSpace(t[|w|]);
      [w] + Words(t[|w|..])
  }

  // ---------------------------------------------------------------------------
  // A layout of words and gaps, the inverse view of `Words`.
  // ---------------------------------------------------------------------------

  /** `gaps[0] + ws[0] + gaps[1] + ... + ws[n-1] + gaps[n]`. */
  function Interleave(gaps: seq<string>, ws: seq<string>): string
    requires |gaps| == |ws| + 1
  {
    if ws == [] then gaps[0] else gaps[0] + ws[0] + Interleave(gaps[1..], ws[1..])
  }

  /** Words separated by whitespace gaps, where only the outer gaps may be empty. */
  ghost predicate WellSpaced(gaps: seq<string>, ws: seq<string>) {
    && |gaps| == |ws| + 1
    && (forall i :: 0 <= i < |gaps| ==> AllSpace(gaps[i]))
    && (forall i :: 0 < i < |ws| ==> gaps[i] != [])
    && (forall i :: 0 <= i < |ws| ==> IsWord(ws[i]))
  }

  lemma {:induction false} SkipSpacesOfBlankPrefix(g: string, t: string)
    requires AllSpace(g)
    requires t == [] || !IsSpace(t[0])
    ensures SkipSpaces(g + t) == t
  {
    if g != [] {
      var s := g + t;
      assert s[0] == g[0] && IsSpace(s[0]);
      assert s[1..] == g[1..] + t;
      SkipSpacesOfBlankPrefix(g[1..], t);
    }
  }

  lemma {:induction false} WordPrefixOfWord(w: string, rest: string)
    requires NoSpace(w)
    requires rest == [] || IsSpace(rest[0])
    ensures WordPrefix(w + rest) == w
  {
    if w != [] {
      assert (w + rest)[1..] == w[1..] + rest;
      WordPrefixOfWord(w[1..], rest);
    }
  }

  lemma InterleaveStart(gaps: seq<string>, ws: seq<string>)
    requires WellSpaced(gaps, ws)
    ensures var s := Interleave(gaps, ws);
      s == [] || IsSpace(s[0]) || (gaps[0] == [] && ws != [] && s[0] == ws[0][0])
  {
    if ws != [] {
      assert Interleave(gaps, ws) == gaps[0] + ws[0] + Interleave(gaps[1..], ws[1..]);
    }
  }

  lemma WellSpacedTail(gaps: seq<string>, ws: seq<string>)
    requires WellSpaced(gaps, ws) && ws != []
    ensures WellSpaced(gaps[1..], ws[1..])
  {
  }

  /** After the first word of a layout comes whitespace or nothing. */
  lemma LayoutRestStart(gaps: seq<string>, ws: seq<string>)
    requires WellSpaced(gaps, ws) && ws != []
    ensures var rest := Interleave(gaps[1..], ws[1..]);
      rest == [] || IsSpace(rest[0])
  {
    WellSpacedTail(gaps, ws);
    InterleaveStart(gaps[1..], ws[1..]);
    if |ws| > 1 {
      assert gaps[1] != [];
    }
  }

  /** One step of `Words`: leading blanks, a word, then a blank or the end. */
  lemma WordsStep(g: string, w: string, rest: string)
    requires AllSpace(g) && IsWord(w)
    requires rest == [] || IsSpace(rest[0])
    ensures Words(g + w + rest) == [w] + Words(rest)
  {
    var s := g + w + rest;
    assert s == g + (w + rest);
    SkipSpacesOfBlankPrefix(g, w + rest);
    WordPrefixOfWord(w, rest);
    assert (w + rest)[|w|..] == rest;
  }

  /** Splitting a well-spaced layout gives back exactly its words. */
  lemma {:induction false} WordsOfLayout(gaps: seq<string>, ws: seq<string>)
    requires WellSpaced(gaps, ws)
    ensures Words(Interleave(gaps, ws)) == ws
    decreases |ws|
  {
    if ws == [] {
      SkipSpacesOfBlankPrefix(gaps[0], []);
      AppendEmpty(gaps[0]);
    } else {
      var rest := Interleave(gaps[1..], ws[1..]);
      LayoutRestStart(gaps, ws);
      WordsStep(gaps[0], ws[0], rest);
      WellSpacedTail(gaps, ws);
      WordsOfLayout(gaps[1..], ws[1..]);
      HeadTail(ws);
    }
  }

  /** The first gap of a layout whose text starts with a blank is non-empty. */
  lemma LeadingGapNonEmpty(gaps: seq<string>, ws: seq<string>)
    requires WellSpaced(gaps, ws) && ws != []
    requires var s := Interleave(gaps, ws); s != [] && IsSpace(s[0])
    ensures gaps[0] != []
  {
    InterleaveStart(gaps, ws);
  }

  lemma WellSpacedCons(g: string, w: string, gaps: seq<string>, ws: seq<string>)
    requires AllSpace(g) && IsWord(w) && WellSpaced(gaps, ws)
    requires ws != [] ==> gaps[0] != []
    ensures WellSpaced([g] + gaps, [w] + ws)
  {
    var gs, vs := [g] + gaps, [w] + ws;
    forall i | 0 <= i < |gs| ensures AllSpace(gs[i]) {
      if i > 0 { assert gs[i] == gaps[i - 1]; }
    }
    forall i | 0 < i < |vs| ensures gs[i] != [] {
      assert gs[i] == gaps[i - 1];
    }
    forall i | 0 <= i < |vs| ensures IsWord(vs[i]) {
      if i > 0 { assert vs[i] == ws[i - 1]; }
    }
  }

  lemma InterleaveCons(g: string, w: string, gaps: seq<string>, ws: seq<string>)
    requires |gaps| == |ws| + 1
    ensures Interleave([g] + gaps, [w] + ws) == g + w + Interleave(gaps, ws)
  {
    assert ([g] + gaps)[1..] == gaps;
    assert ([w] + ws)[1..] == ws;
  }

  /** A string with a non-blank character splits into blanks, a word and the rest. */
  lemma FirstWord(s: string) returns (g: string, w: string, rest: string)
    requires SkipSpaces(s) != []
    ensures AllSpace(g) && IsWord(w) && (rest == [] || IsSpace(rest[0]))
    ensures s == g + w + rest
  {
    var t := SkipSpaces(s);
    g := s[..|s| - |t|];
    SplitAt(s, |s| - |t|);
    w := WordPrefix(t);
    rest := t[|w|..];
    SplitAt(t, |w|);
    assert AllSpace(g);
    assert w != [] by {
      assert |w| < |t| ==> IsSpace(t[|w|]);
    }
    assert rest == [] || IsSpace(rest[0]) by {
      if rest != [] { assert rest[0] == t[|w|]; }
    }
    ConcatAssoc(g, w, rest);
  }

  /** Every string is a well-spaced layout of its own words. */
  lemma {:induction false} LayoutOfWords(s: string) returns (gaps: seq<string>)
    ensures WellSpaced(gaps, Words(s))
    ensures Interleave(gaps, Words(s)) == s
    decreases |s|
  {
    if SkipSpaces(s) == [] {
      gaps := [s];
      assert s[..|s|] == s;
    } else {
      var g, w, rest := FirstWord(s);
      WordsStep(g, w, rest);
      var gaps' := LayoutOfWords(rest);
      var ws' := Words(rest);
      if ws' != [] {
        LeadingGapNonEmpty(gaps', ws');
      }
      WellSpacedCons(g, w, gaps', ws');
      InterleaveCons(g, w, gaps', ws');
      gaps := [g] + gaps';
    }
  }

  /** Exactly two words: the header shape `<scheme> <credentials>`. */
  lemma TwoWords(g0: string, a: string, g1: string, b: string, g2: string)
    requires IsWord(a) && IsWord(b)
    requires AllSpace(g0) && AllSpace(g1) && AllSpace(g2) && g1 != []
    ensures Words(g0 + a + g1 + b + g2) == [a, b]
  {
    var tail := g1 + b + g2;
    assert g0 + a + tail == g0 + a + g1 + b + g2;
    assert IsSpace(tail[0]);
    OneWord(g1, b, g2);
    WordsStep(g0, a, tail);
    Pair(a, b);
  }

  /** A word after whitespace splits into that word alone. */
  lemma WordAfterSpace(g: string, w: string)
    requires AllSpace(g) && IsWord(w)
    ensures Words(g + w) == [w]
  {
    var e: string := [];
    OneWord(g, w, e);
    AppendEmpty(g + w);
  }

  /** Two words joined by one space split back into those two words. */
  lemma SpaceSeparated(a: string, b: string)
    requires IsWord(a) && IsWord(b)
    ensures Words(a + " " + b) == [a, b]
  {
    var e: string := [];
    var sp: string := " ";
    assert e + a + (sp + b) == a + " " + b;
    assert IsSpace(sp[0]);
    WordAfterSpace(sp, b);
    WordsStep(e, a, sp + b);
    Pair(a, b);
  }

  /** A lone word with surrounding whitespace splits into that word only. */
  lemma OneWord(g0: string, a: string, g1: string)
    requires IsWord(a) && AllSpace(g0) && AllSpace(g1)
    ensures Words(g0 + a + g1) == [a]
  {
    WordsStep(g0, a, g1);
    NoWords(g1);
    AppendEmpty([a]);
  }

  /** Whitespace alone splits into nothing. */
  lemma NoWords(g: string)
    requires AllSpace(g)
    ensures Words(g) == []
  {
    assert WellSpaced([g], []);
    WordsOfLayout([g], []);
  }

  // ---------------------------------------------------------------------------
  // Prefixes, bounded slices and decimal numbers.
  // ---------------------------------------------------------------------------

  /** Python's `s.startswith(p)`. */
  predicate StartsWith(s: string, p: string) {
    |p| <= |s| && s[..|p|] == p
  }

  /** One differing position rules a prefix out. */
  lemma NotStartsWith(s: string, p: string, i: nat)
    requires i < |p| && i < |s| && s[i] != p[i]
    ensures !StartsWith(s, p)
  {
    if |p| <= |s| {
      assert s[..|p|][i] == s[i];
    }
  }

  /** Python's `sub in s`. */
  predicate Contains(s: string, sub: string) {
    exists k :: 0 <= k <= |s| && StartsWith(s[k..], sub)
  }

  /** Python's `s[:n]` for `n >= 0`: the prefix of length at most `n`. */
  function Truncate(s: string, n: nat): (r: string)
    ensures |r| <= n && |r| <= |s|
    ensures StartsWith(s, r)
    ensures |s| <= n ==> r == s
    ensures n <= |s| ==> |r| == n
  {
    if |s| <= n then s else s[..n]
  }

  predicate IsAsciiDigit(c: char) {
    '0' <= c <= '9'
  }

  function DigitChar(d: nat): (c: char)
    requires d < 10
    ensures IsAsciiDigit(c)
  {
    "0123456789"[d]
  }

  function DigitValue(c: char): (d: nat)
    requires IsAsciiDigit(c)
    ensures d < 10
  {
    (c as int) - ('0' as int)
  }

  /** Python's `str(n)` for a non-negative integer. */
  function Decimal(n: nat): (r: string)
    ensures r != []
    ensures forall i :: 0 <= i < |r| ==> IsAsciiDigit(r[i])
  {
    if n < 10 then [DigitChar(n)] else Decimal(n / 10) + [DigitChar(n % 10)]
  }

  /** Python's `int(s)` on a string of ASCII digits. */
  function ParseDecimal(s: string): nat
    requires forall i :: 0 <= i < |s| ==> IsAsciiDigit(s[i])
  {
    if s == [] then 0 else ParseDecimal(s[..|s| - 1]) * 10 + DigitValue(s[|s| - 1])
  }

  /** Reading back a rendered number gives the number. */
  lemma {:induction false} DecimalRoundTrip(n: nat)
    ensures ParseDecimal(Decimal(n)) == n
  {
    var r := Decimal(n);
    if n < 10 {
      assert r[..0] == [];
    } else {
      assert r[..|r| - 1] == Decimal(n / 10);
      DecimalRoundTrip(n / 10);
    }
  }
}

=== FILE: uuid.dfy ===
/**
 * `is_valid_uuid` from vertical/app/utils.py: a string passes when
 * `str(uuid.UUID(s, version=4)) == s`. The check parses leniently, forces the
 * version and variant bits of RFC 4122 (sections 4.1.1 and 4.1.3), formats the
 * result canonically, and compares it with the input text.
 */
module Uuid {
  import opened Common
  import Text

  /** A hexadecimal digit as `int(_, 16)` reads it (either case). */
  predicate IsHexDigit(c: char) {
    ('0' <= c <= '9') || ('a' <= c <= 'f') || ('A' <= c <= 'F')
  }

  /** A digit as `'%032x'` writes it. */
  predicate IsLowerHex(c: char) {
    ('0' <= c <= '9') || ('a' <= c <= 'f')
  }

  function HexValue(c: char): (v: nat)
    requires IsHexDigit(c)
    ensures v < 16
  {
    if '0' <= c <= '9' then (c as int) - ('0' as int)
    else if 'a' <= c <= 'f' then (c as int) - ('a' as int) + 10
    else (c as int) - ('A' as int) + 10
  }

  function HexChar(v: nat): (c: char)
    requires v < 16
    ensures IsLowerHex(c)
  {
    "0123456789abcdef"[v]
  }

  /** Reading a lowercase digit and writing it back gives the same digit. */
  lemma HexRoundTrip(c: char)
    requires IsLowerHex(c)
    ensures HexChar(HexValue(c)) == c
  {
  }

  // ---------------------------------------------------------------------------
  // Parsing: the steps of `uuid.UUID(hex)`.
  // ---------------------------------------------------------------------------

  /** Python's `s.replace(pat, "")`: every non-overlapping occurrence, left to right. */
  function RemoveAll(s: string, pat: string): string
    requires pat != []
    decreases |s|
  {
    if s == [] then []
    else if Text.StartsWith(s, pat) then RemoveAll(s[|pat|..], pat)
    else [s[0]] + RemoveAll(s[1..], pat)
  }

  predicate IsBrace(c: char) {
    c == '{' || c == '}'
  }

  function StripLeadingBraces(s: string): string {
    if s != [] && IsBrace(s[0]) then StripLeadingBraces(s[1..]) else s
  }

  function StripTrailingBraces(s: string): string {
    if s != [] && IsBrace(s[|s| - 1]) then StripTrailingBraces(s[..|s| - 1]) else s
  }

  /** Python's `s.strip('{}')`. */
  function StripBraces(s: string): string {
    StripTrailingBraces(StripLeadingBraces(s))
  }

  /** Python's `s.replace('-', '')`. */
  function RemoveHyphens(s: string): string {
    if s == [] then []
    else if s[0] == '-' then RemoveHyphens(s[1..])
    else [s[0]] + RemoveHyphens(s[1..])
  }

  /** The hex text `uuid.UUID` extracts before converting it to an integer. */
  function HexText(s: string): string {
    RemoveHyphens(StripBraces(RemoveAll(RemoveAll(s, "urn:"), "uuid:")))
  }

  /** The 128-bit value as 32 nibbles, most significant first; `None` is the `ValueError`. */
  function Parse(s: string): (r: Option<seq<nat>>)
    ensures r.Some? ==> |r.value| == 32 && forall k :: 0 <= k < 32 ==> r.value[k] < 16
  {
    var h := HexText(s);
    if |h| == 32 && forall k :: 0 <= k < 32 ==> IsHexDigit(h[k])
    then Some(seq(32, k requires 0 <= k < 32 => HexValue(h[k])))
    else None
  }

  predicate IsNibbles(n: seq<nat>) {
    |n| == 32 && forall k :: 0 <= k < 32 ==> n[k] < 16
  }

  /** `version=4`: nibble 12 becomes 4 and the top two bits of nibble 16 become `10`. */
  function SetVersion4(n: seq<nat>): (r: seq<nat>)
    requires IsNibbles(n)
    ensures IsNibbles(r)
    ensures r[12] == 4 && 8 <= r[16] < 12
    ensures forall k :: 0 <= k < 32 && k != 12 && k != 16 ==> r[k] == n[k]
  {
    n[12 := 4][16 := 8 + n[16] % 4]
  }

  // ---------------------------------------------------------------------------
  // Formatting: `str(uuid)` is `8-4-4-4-12` lowercase hex.
  // ---------------------------------------------------------------------------

  predicate IsHyphenPos(i: int) {
    i == 8 || i == 13 || i == 18 || i == 23
  }

  /** The nibble shown at text position `i` (for a non-hyphen position). */
  function NibbleAt(i: nat): (k: nat)
    requires i < 36 && !IsHyphenPos(i)
    ensures k < 32
  {
    if i < 8 then i else if i < 13 then i - 1 else if i < 18 then i - 2
    else if i < 23 then i - 3 else i - 4
  }

  /** `str(uuid)`: the nibbles in lowercase hex with hyphens after 8, 12, 16 and 20 digits. */
  function Format(n: seq<nat>): (r: string)
    requires IsNibbles(n)
    ensures |r| == 36
  {
    seq(36, i requires 0 <= i < 36 =>
      if IsHyphenPos(i) then '-' else HexChar(n[NibbleAt(i)]))
  }

  /** `is_valid_uuid(s)` with the default `version=4`. */
  function IsValidUuid(s: string): (r: bool)
    ensures r ==> |s| == 36
    ensures r ==> forall i :: 0 <= i < 36 && IsHyphenPos(i) ==> s[i] == '-'
    ensures r ==> forall i :: 0 <= i < 36 && !IsHyphenPos(i) ==> IsLowerHex(s[i])
    ensures r ==> s[14] == '4' && s[19] in "89ab"
  {
    match Parse(s)
    case None => false
    case Some(n) => Format(SetVersion4(n)) == s
  }

  /** The canonical lowercase text of a version-4, RFC 4122-variant UUID. */
  predicate Canonical(s: string) {
    && |s| == 36
    && (forall i :: 0 <= i < 36 && IsHyphenPos(i) ==> s[i] == '-')
    && (forall i :: 0 <= i < 36 && !IsHyphenPos(i) ==> IsLowerHex(s[i]))
    && s[14] == '4'
    && s[19] in "89ab"
  }

  /** The `8-4-4-4-12` layout with hex digits of either case: `Canonical` without the case and version. */
  predicate Spelled(s: string) {
    && |s| == 36
    && (forall i :: 0 <= i < 36 && IsHyphenPos(i) ==> s[i] == '-')
    && (forall i :: 0 <= i < 36 && !IsHyphenPos(i) ==> IsHexDigit(s[i]))
  }

  // ---------------------------------------------------------------------------
  // The converse: every canonical string passes.
  // ---------------------------------------------------------------------------

  lemma {:induction false} RemoveAllAbsent(s: string, pat: string)
    requires pat != []
    requires forall i :: 0 <= i < |s| ==> s[i] != pat[0]
    ensures RemoveAll(s, pat) == s
  {
    if s != [] {
      assert !Text.StartsWith(s, pat) by {
        if |pat| <= |s| { assert s[..|pat|][0] == s[0]; }
      }
      RemoveAllAbsent(s[1..], pat);
    }
  }

  lemma {:induction false} RemoveHyphensAppend(a: string, b: string)
    ensures RemoveHyphens(a + b) == RemoveHyphens(a) + RemoveHyphens(b)
  {
    if a == [] {
      assert a + b == b;
    } else {
      assert (a + b)[0] == a[0];
      assert (a + b)[1..] == a[1..] + b;
      RemoveHyphensAppend(a[1..], b);
      if a[0] != '-' {
        ConcatAssoc([a[0]], RemoveHyphens(a[1..]), RemoveHyphens(b));
      }
    }
  }

  lemma RemoveHyphensAbsent(s: string)
    requires forall i :: 0 <= i < |s| ==> s[i] != '-'
    ensures RemoveHyphens(s) == s
  {
  }

  /** Dropping one hyphen splits the work at that position. */
  lemma RemoveHyphenAt(t: string, k: nat)
    requires k < |t| && t[k] == '-'
    ensures RemoveHyphens(t) == RemoveHyphens(t[..k]) + RemoveHyphens(t[k + 1..])
  {
    SplitAt(t, k);
    SplitAt(t[k..], 1);
    assert t[k..][..1] == "-" && t[k..][1..] == t[k + 1..];
    RemoveHyphensAppend(t[..k], t[k..]);
    RemoveHyphensAppend("-", t[k + 1..]);
  }

  /** The 32 digits of an `8-4-4-4-12` string, hyphens dropped. */
  function Digits(s: string): (h: string)
    requires Spelled(s)
    ensures |h| == 32
  {
    s[..8] + s[9..13] + s[14..18] + s[19..23] + s[24..]
  }

  lemma DigitsAt(s: string, i: nat)
    requires Spelled(s) && i < 36 && !IsHyphenPos(i)
    ensures Digits(s)[NibbleAt(i)] == s[i]
  {
  }

  lemma PrefixSlices<T>(s: seq<T>, j: nat, k: nat)
    requires k < j <= |s|
    ensures s[..j][..k] == s[..k]
    ensures s[..j][k + 1..] == s[k + 1..j]
  {
  }

  /** Hyphen removal from the `8-4-4-4-12` layout leaves the five digit groups. */
  lemma RemoveHyphensOfSpelled(s: string)
    requires Spelled(s)
    ensures RemoveHyphens(s) == Digits(s)
  {
    var a, b, c, d, e := s[..8], s[9..13], s[14..18], s[19..23], s[24..];
    assert RemoveHyphens(a) == a by { RemoveHyphensAbsent(a); }
    assert RemoveHyphens(b) == b by { RemoveHyphensAbsent(b); }
    assert RemoveHyphens(c) == c by { RemoveHyphensAbsent(c); }
    assert RemoveHyphens(d) == d by { RemoveHyphensAbsent(d); }
    assert RemoveHyphens(e) == e by { RemoveHyphensAbsent(e); }
    RemoveHyphenAt(s, 23);
    RemoveHyphenAt(s[..23], 18);
    PrefixSlices(s, 23, 18);
    RemoveHyphenAt(s[..18], 13);
    PrefixSlices(s, 18, 13);
    RemoveHyphenAt(s[..13], 8);
    PrefixSlices(s, 13, 8);
  }

  lemma HexTextOfSpelled(s: string)
    requires Spelled(s)
    ensures HexText(s) == Digits(s)
  {
    RemoveAllAbsent(s, "urn:");
    RemoveAllAbsent(s, "uuid:");
    assert StripBraces(s) == s;
    RemoveHyphensOfSpelled(s);
  }

  /** The digits of an `8-4-4-4-12` string are all hex digits. */
  lemma DigitsAreHex(s: string)
    requires Spelled(s)
    ensures forall k :: 0 <= k < 32 ==> IsHexDigit(Digits(s)[k])
  {
    var h := Digits(s);
    forall k | 0 <= k < 32 ensures IsHexDigit(h[k]) {
      assert h[k] == s[if k < 8 then k else if k < 12 then k + 1 else if k < 16 then k + 2
                       else if k < 20 then k + 3 else k + 4];
    }
  }

  /** Any text whose extracted hex is the digits of an `8-4-4-4-12` string parses to those digits. */
  lemma ParsesToDigits(t: string, s: string)
    requires Spelled(s) && HexText(t) == Digits(s)
    ensures Parse(t) == Some(seq(32, k requires 0 <= k < 32 => HexValue(Digits(s)[k])))
  {
    DigitsAreHex(s);
  }

  /** Every canonical lowercase version-4 string is accepted. */
  lemma CanonicalIsValid(s: string)
    requires Canonical(s)
    ensures IsValidUuid(s)
  {
    HexTextOfSpelled(s);
    var h := Digits(s);
    ParsesToDigits(s, s);
    var n := Parse(s).value;
    DigitsAt(s, 14);
    DigitsAt(s, 19);
    assert SetVersion4(n) == n;
    forall i | 0 <= i < 36 ensures Format(n)[i] == s[i] {
      if !IsHyphenPos(i) {
        DigitsAt(s, i);
        HexRoundTrip(s[i]);
      }
    }
  }

  /** `is_valid_uuid` accepts exactly the canonical lowercase version-4 spelling. */
  lemma ValidIffCanonical(s: string)
    ensures IsValidUuid(s) <==> Canonical(s)
  {
    if Canonical(s) {
      CanonicalIsValid(s);
    }
  }

  /** `make_uuid`: `str(uuid4())` built from 128 random bits. */
  function MakeUuid(random: seq<nat>): (r: string)
    requires IsNibbles(random)
    ensures IsValidUuid(r)
  {
    var r := Format(SetVersion4(random));
    assert Canonical(r);
    CanonicalIsValid(r);
    r
  }

  /** A text where `pat`'s first two characters never stand side by side holds no occurrence of `pat`. */
  lemma {:induction false} RemoveAllNoPair(s: string, pat: string)
    requires |pat| >= 2
    requires forall i :: 0 <= i < |s| - 1 ==> s[i] != pat[0] || s[i + 1] != pat[1]
    ensures RemoveAll(s, pat) == s
  {
    if s != [] {
      if |pat| <= |s| {
        if s[0] != pat[0] {
          Text.NotStartsWith(s, pat, 0);
        } else {
          Text.NotStartsWith(s, pat, 1);
        }
      }
      RemoveAllNoPair(s[1..], pat);
    }
  }

  /** Braces around a canonical id are stripped before its digits are read. */
  lemma BracedParses(s: string)
    requires Canonical(s)
    ensures HexText("{" + s + "}") == HexText(s)
  {
    var braced := "{" + s + "}";
    RemoveAllAbsent(braced, "urn:");
    RemoveAllAbsent(braced, "uuid:");
    var closed := s + "}";
    assert braced[1..] == closed && !IsBrace(closed[0]);
    assert StripLeadingBraces(braced) == closed;
    assert closed[..36] == s && !IsBrace(s[35]);
    assert StripTrailingBraces(closed) == s;
    RemoveAllAbsent(s, "urn:");
    RemoveAllAbsent(s, "uuid:");
    assert StripBraces(s) == s;
  }

  /** A `urn:uuid:` prefix before a canonical id is dropped before its digits are read. */
  lemma UrnParses(s: string)
    requires Canonical(s)
    ensures HexText("urn:uuid:" + s) == HexText(s)
  {
    var urn := "urn:uuid:" + s;
    var rest := "uuid:" + s;
    assert urn[..4] == "urn:" && urn[4..] == rest;
    RemoveAllNoPair(rest, "urn:");
    assert rest[..5] == "uuid:" && rest[5..] == s;
    RemoveAllAbsent(s, "uuid:");
    RemoveAllAbsent(s, "urn:");
  }

  /** The 32 bare digits of a canonical id parse to the same value as the id. */
  lemma HyphenFreeParses(s: string)
    requires Canonical(s)
    ensures HexText(RemoveHyphens(s)) == HexText(s)
  {
    RemoveHyphensOfSpelled(s);
    HexTextOfSpelled(s);
    var digits := Digits(s);
    DigitsAreHex(s);
    assert forall k :: 0 <= k < |digits| ==> IsHexDigit(digits[k]);
    RemoveAllAbsent(digits, "urn:");
    RemoveAllAbsent(digits, "uuid:");
    assert StripBraces(digits) == digits;
    RemoveHyphensAbsent(digits);
  }

  /** A canonical id with one digit in uppercase still parses. */
  lemma UppercaseParses(s: string, i: nat)
    requires Canonical(s) && i < 36 && 'a' <= s[i] <= 'f'
    ensures Parse(s[i := ((s[i] as int) - 32) as char]).Some?
  {
    var t := s[i := ((s[i] as int) - 32) as char];
    assert Spelled(t);
    HexTextOfSpelled(t);
    ParsesToDigits(t, t);
  }

  /**
   * Spellings `uuid.UUID` parses but `str` never produces are rejected: braces,
   * a `urn:uuid:` prefix, no hyphens, or an uppercase digit.
   */
  lemma NonCanonicalSpellingsRejected(s: string)
    requires Canonical(s)
    ensures Parse("{" + s + "}").Some? && !IsValidUuid("{" + s + "}")
    ensures Parse("urn:uuid:" + s).Some? && !IsValidUuid("urn:uuid:" + s)
    ensures Parse(RemoveHyphens(s)).Some? && !IsValidUuid(RemoveHyphens(s))
    ensures forall i :: 0 <= i < 36 && 'a' <= s[i] <= 'f' ==>
      var t := s[i := ((s[i] as int) - 32) as char];
      Parse(t).Some? && !IsValidUuid(t)
  {
    CanonicalIsValid(s);
    BracedParses(s);
    UrnParses(s);
    HyphenFreeParses(s);
    RemoveHyphensOfSpelled(s);
    forall i | 0 <= i < 36 && 'a' <= s[i] <= 'f'
      ensures var t := s[i := ((s[i] as int) - 32) as char];
              Parse(t).Some? && !IsValidUuid(t)
    {
      UppercaseParses(s, i);
    }
  }
}
